=== FILE: README.md ===
# Room core of the QuadEmulator hotel server, in Dafny

This project models the sequential core of a Habbo-style hotel server
(QuadEmulator, C++) and proves properties of the model:

- **Tile grid** (`tile_grid.dfy`, `text.dfy`): `Room::LoadGridData` splits the room
  model's height map on `\r`. Each digit cell becomes an OPEN tile at that height.
  Any other character gives a CLOSED tile at height 0. The door cell is forced OPEN
  at the door height. Public rooms also attach the catalogue item, its triggers (or
  the `"default"` trigger) and the walkway to every tile.
- **Avatar and session** (`avatar.dfy`): the avatar (`Habbo`), its statuses as a set,
  its `WayPoints` path state, and the per-room session (`RoomHabboInfo`).
- **Sit rule** (`path_finder.dfy`): `WayPoints::CheckForInteractiveObjects` as a pure
  transition on a session, given the grid.
- **Room** (`room.dfy`): join and leave run in two phases. `EnterRoom` and `LeaveRoom`
  take their synchronous effects and queue a `Join(account)` or `Leave(guid)`
  command. A queued join names the avatar object, as the source's callback holds
  a pointer to it. The room keeps those avatars in `joining`, and the join reads
  the avatar's GUID and fields when it runs, not when it was queued. `Update`
  drains the queue first to last and then runs each session through the path
  finder's step. The model also covers the broadcasts
  (`SendPacketToAll`, `SendUserLeftRoom`, `AddFigure`, `SendRoomStatuses`,
  `SendWorldObjects`, `SendActiveObjects`) and the per-GUID commands and queries
  (`Walk`, `AddStatus`, `RemoveStatus`, `HasStatus`, `FindHabboByName`, `GetCcts`).
  Everything sent is appended to an outbound log of `(account id, message)` events,
  so fan-out can be stated.
- **Occupancy accounting** (`room_invariants.dfy`): when the counter equals the map
  size and stays within capacity, and the inputs that break it.
- **Registration checks** (`registration.dfy`): the name, password and email
  validators, and the field decoding of the registration packet.
- **Tick drift compensation** (`world_timer.dfy`): the `uint32` sleep computation of
  the main loop.

Two traps of the source are modelled literally, not fixed:

- The capacity test reads only the live counter. Joins still waiting in the queue
  are not counted.
- The join completion inserts with `operator[]`. A GUID drawn twice overwrites the
  earlier session, but both joins are still counted. GUIDs are drawn at random in
  [1, 9999] with no uniqueness check.

So `visitorsNow == |sessions|` and `visitorsNow <= visitorsMax` hold only under a
discipline. Every admission needs an avatar with no join queued yet, a GUID that is
free when its join runs, and a free slot beyond the joins already queued. At most
one leave per GUID may be queued between ticks, even when a join in between has
put the GUID back: the queued erase holds an iterator to the old map entry. Walks
and status changes keep the invariant unconditionally. `RoomInvariants.RunKeepsInv` proves the invariant along any sequence
of calls that keeps this discipline. `CapacityOverrun`, `GuidCollisionMiscounts` and
`DoubleEnterBeforeTick` show what happens without it, and `RejoinedGuidLeftTwice` shows
the second leave the discipline rules out.

Behaviour worth noting:

- `GetCcts` with a filter keeps scanning past mismatches. It returns the filter
  whenever any tag equals it, wherever that tag stands.
- An empty first height-map row gives an empty grid, not an error.
- The "user left" notice also goes to the leaver, which is still in the map.
- `EnterRoom` for an avatar already in the map returns `true` and does nothing else.
- The source reads a `std::string` one past its end in two places: a height-map
  row one character shorter than the first, and a password filter shorter than ten
  characters. `operator[]` at the length gives the terminating NUL, which
  `Text.CharAt` models. A NUL is not a digit, so it becomes a CLOSED tile at height
  0, and in the password test it counts as a filter character missing from the
  password (unless the password itself holds a NUL).

The session map's type is declared in a header that is not part of this model. Its
iteration order is taken to be `std::map`'s ascending GUID order (`Room.SortedKeys`).

## Model

| member | source | states |
|---|---|---|
| Text.Split | src/Server/Room/Room.cpp:38 | `boost::split` on one separator: at least one piece, no piece holds the separator, and joining the pieces gives back the string |
| Text.SplitJoin | src/Server/Room/Room.cpp:38 | splitting joined separator-free pieces gives back those pieces, so `Split` and `Join` are inverse |
| TileGrid.GetTile | src/Server/Room/Room.cpp:158 | the tile lookup gives a tile exactly when one is stored at the position, and then that tile; none otherwise |
| TileGrid.GetTileOnLoadedGrid | src/Server/Room/Room.cpp:40-70 | on a grid loaded from a height map, the lookup finds a tile exactly inside [0, X size) × [0, Y size), and that tile is the cell tile of the character at the position (the terminating NUL one past a short row) |
| TileGrid.CellTile | src/Server/Room/Room.cpp:51-90 | a tile carries its own coordinates and starts unoccupied; a digit gives OPEN at the digit's value and anything else, the NUL terminator included, gives CLOSED at 0; the door cell is OPEN at the door height whatever its character; public tiles get the item, its triggers or exactly `["default"]`, and the walkway; other rooms get none of these |
| TileGrid.LoadGridData | src/Server/Room/Room.cpp:35-93 | Y size is the number of `\r`-separated rows and X size the first row's length; there is exactly one tile per in-range coordinate and none elsewhere; each is the cell tile of the row's character, read as the NUL terminator one past the row's end |
| TileGrid.HeightMapExample | src/Server/Room/Room.cpp:38-70 | loading `"11\r22"` with the door at (0,0) and height 5 gives a 2 × 2 grid: the door tile OPEN at 5, the tiles at (1,0) and (1,1) OPEN at 1 and 2, and no tile at (2,0) or (0,2) |
| TileGrid.ShortRowExample | src/Server/Room/Room.cpp:46-63 | loading `"1x\r2"` gives a 2 × 2 grid whose (0,1) tile is OPEN at 2, whose `x` tile is CLOSED at 0, and whose (1,1) tile, read from the second row's terminator, is CLOSED at 0 |
| TileGrid.SetTileOccupied | src/Server/Room/Room.cpp:158-159 | only the tile at the position changes, and only its occupancy flag; outside the grid nothing changes |
| Avatar.UpdatePosition | src/Server/Room/Room.cpp:118-122 | the avatar takes the new position and rotation and keeps everything else |
| PathFinder.NewWayPoints | src/Server/PathFinder/WayPoints.cpp:28-31 | a new `WayPoints` has no active path and no end position |
| PathFinder.SetEndPosition | src/Server/PathFinder/WayPoints.cpp:41-45 | stores exactly `(x, y)` as the end position and leaves the active-path flag alone |
| PathFinder.ItemUnder | src/Server/PathFinder/WayPoints.cpp:52-54 | an item is found exactly when the avatar's tile exists and holds one |
| PathFinder.CheckForInteractiveObjects | src/Server/PathFinder/WayPoints.cpp:49-65 | no tile, no item, or an item without the `"can_sit_on_top"` behaviour leaves the session unchanged; on a sit item DANCING is gone, SITTING is present, every other status is as before, and the avatar takes the item's x, y, z and rotation with nothing else changed |
| PathFinder.SitIsIdempotent | src/Server/PathFinder/WayPoints.cpp:49-65 | when every item stands on its own tile, checking twice is the same as checking once |
| Room.FanOut | src/Server/Room/Room.cpp:307-310 | one event per listed session, in list order, each addressed to that session's avatar |
| Room.FanOutReachesAll | src/Server/Room/Room.cpp:305-311 | a fan-out over all keys reaches exactly the avatars in the map |
| Room.SendPacketToAll | src/Server/Room/Room.cpp:305-311 | appends exactly one copy of the message per session to the log, keeps the earlier log, and its recipients are exactly the avatars in the map; nothing else changes |
| Room.SendUserLeftRoom | src/Server/Room/Room.cpp:260-270 | changes only the log, appending one entry per session in the map, each a "user left" notice for the GUID |
| Room.SendUserLeftRoomReachesAll | src/Server/Room/Room.cpp:260-270 | the notices go to exactly the avatars in the map, as `SendPacketToAll` of the notice would send them |
| Room.EnterRoom | src/Server/Room/Room.cpp:98-132 | the map, grid and both counters never change; an avatar whose GUID is already in the map gets `true` with no effect at all; a full room (live count at or over capacity) gets `false` and exactly one ROOM_IS_FULL to the avatar; otherwise the avatar is placed at the walkway destination or else the door, takes the drawn GUID in [1, 9999], keeps its other fields, one messenger update is logged, exactly one join naming the avatar is queued and the placed avatar is what that join will read |
| Room.LeaveEffectsFrame | src/Server/Room/Room.cpp:156-168 | the synchronous leave changes only the grid and the log: the leaver's tile is freed, and the log gains a messenger update first and the detach last, with one entry per session between them |
| Room.LeaveEffectsNotices | src/Server/Room/Room.cpp:165 | the entries between them are all "user left" for the leaver's GUID, and every session in the map, the leaver included, receives one |
| Room.LeaveRoom | src/Server/Room/Room.cpp:152-174 | an unknown GUID changes nothing; otherwise only the grid, queue and log change: the map and counters stay, the leaver's tile is freed, exactly one erase is queued, and the log grows by a messenger update first and the detach last, with one entry per session between them |
| Room.LeaveRoomNotifiesAll | src/Server/Room/Room.cpp:161-168 | those middle entries are all "user left" for the leaver's GUID, and every session still in the map, the leaver included, receives one |
| Room.NewSession | src/Server/Room/Room.cpp:139 | a new session holds the avatar with no statuses and no active path |
| Room.Apply | src/Server/Room/Room.cpp:137-184 | a join reads the named avatar as it is when the join runs, puts a fresh session under that avatar's current GUID, overwriting any held there, adds one to the room and category counters and sends RoomReady; a leave erases the GUID and takes one from both counters |
| Room.Drain | src/Server/Room/Room.cpp:411 | draining the queue leaves the grid, capacity and queue field alone |
| Room.ProcessUserActions | src/Server/Room/Room.cpp:380-386 | every session in the map, and no other, goes through the step once |
| Room.Update | src/Server/Room/Room.cpp:408-414 | the queue is drained first to last and left empty, and no avatar is waiting to join any more; only the sessions present after the drain are stepped, each once |
| Room.Walk | src/Server/Room/Room.cpp:325-330 | an unknown GUID changes nothing; otherwise that session alone is replaced by the path finder's answer to the end position, and nothing else changes |
| Room.AddStatus | src/Server/Room/Room.cpp:335-340 | an unknown GUID changes nothing; otherwise only that session gains the status and nothing else changes |
| Room.RemoveStatus | src/Server/Room/Room.cpp:345-350 | an unknown GUID changes nothing; otherwise only that session loses the status and nothing else changes |
| Room.HasStatus | src/Server/Room/Room.cpp:356-363 | true exactly when the GUID is in the map and its session has the status; false for an unknown GUID |
| Room.StatusFlagsAgree | src/Server/Room/Room.cpp:335-363 | after adding a status it is present exactly when the GUID is in the map; after removing it, it is absent; every other GUID and status reads as before |
| Room.StatusRoundTrip | src/Server/Room/Room.cpp:335-350 | removing a status just added to a GUID that lacked it gives back the room, and adding it twice is adding it once |
| Room.WalkKeepsRoom | src/Server/Room/Room.cpp:325-330 | a walk keeps the set of GUIDs and every other session, and changes nothing outside the map |
| Room.FindHabboByName | src/Server/Room/Room.cpp:367-376 | none exactly when no avatar in the map has the name; otherwise the avatar of the lowest-GUID session with that name |
| Room.FirstInOrder | src/Server/Room/Room.cpp:367-376 | when the first i keys in ascending order hold no avatar of that name, no session with a smaller GUID than the i-th key holds one |
| Room.GetCcts | src/Server/Room/Room.cpp:391-403 | an empty filter gives the first tag or ""; a non-empty filter gives itself when it is among the tags anywhere, else "" |
| Room.GenderCode | src/Server/Room/Room.cpp:210 | "M" exactly for "Male", "F" for anything else |
| Room.IntroductionsContent | src/Server/Room/Room.cpp:196-231 | the introductions are exactly the joiner shown to each occupant with another account id, and each occupant shown to the joiner |
| Room.AddFigureAsWritten | src/Server/Room/Room.cpp:196-231 | as written, only the log changes and keeps its earlier entries; the new entries show the joiner every occupant, each wearing the joiner's pool figure, show every occupant with another account id the joiner, and hold nothing else |
| Room.AddFigureShowsJoinersPoolFigure | src/Server/Room/Room.cpp:223 | in a pool room an occupant whose pool figure differs from the joiner's is shown with the wrong one |
| Room.IntroductionsCover | src/Server/Room/Room.cpp:198-230 | over the whole map, with either choice of pool figure, the joiner is shown every occupant wearing that figure, and every occupant with another account id is shown the joiner |
| Room.IntroductionsOnly | src/Server/Room/Room.cpp:198-230 | every introduction over the whole map shows some occupant to the joiner wearing the chosen pool figure, or shows the joiner to some occupant with another account id |
| Room.AddFigure | src/Server/Room/Room.cpp:196-231 | with the pool figure corrected, only the log changes and keeps its earlier entries; the new entries show the joiner every occupant as that occupant is, show every other occupant the joiner, and hold nothing else |
| Room.StatusOf | src/Server/Room/Room.cpp:242-253 | the status packet carries the avatar's GUID and one flag per status, each true exactly when the session has that status |
| Room.StatusEvents | src/Server/Room/Room.cpp:238-256 | one status packet per listed session, in order, all addressed to the joiner |
| Room.StatusEventsCover | src/Server/Room/Room.cpp:236-257 | over all keys, every session's status reaches the joiner |
| Room.SendRoomStatuses | src/Server/Room/Room.cpp:236-257 | the joiner receives exactly one status packet per session and only status packets; nothing else changes |
| Room.SendWorldObjects | src/Server/Room/Room.cpp:274-300 | a public room sends one packet listing the catalogue items; other rooms send nothing |
| Room.SendActiveObjects | src/Server/Room/Room.cpp:315-319 | one active-objects packet to the avatar and nothing else |
| RoomInvariants.InvBoundsOccupancy | src/Server/Room/Room.cpp:109 | under the invariant the live count lies in [0, capacity] |
| RoomInvariants.DrainKeys | src/Server/Room/Room.cpp:137-184 | draining leaves exactly the GUIDs the commands predict, and moves the room and category counters by the same amount |
| RoomInvariants.DrainKeepsCount | src/Server/Room/Room.cpp:137-184 | with every join fresh and every leave present at its turn, the counter stays equal to the map size and ends at most the current size plus the joins |
| RoomInvariants.PendingOkAppend | src/Server/Room/Room.cpp:129 | a queued command keeps the queue well formed exactly when a join's GUID is free, or a leave's GUID is held, once the earlier commands have run |
| RoomInvariants.RebindUnqueued | src/Server/Room/Room.cpp:124-139 | changing an avatar that no queued join names changes neither the GUIDs the queue will leave nor whether it is well formed |
| RoomInvariants.UpdateKeepsInv | src/Server/Room/Room.cpp:408-414 | after `Update` the queue is empty, the counter equals the map size and is within capacity, and the category counter moved by the same amount |
| RoomInvariants.EnterRoomKeepsInv | src/Server/Room/Room.cpp:101-131 | an admission of an avatar with no join queued yet, with a GUID free at its turn and a slot beyond the queued joins, keeps the invariant |
| RoomInvariants.HeldUnlessLeft | src/Server/Room/Room.cpp:137-184 | a GUID held now and named by no queued leave is still held once the queue has run |
| RoomInvariants.LeaveRoomKeepsInv | src/Server/Room/Room.cpp:154-170 | a leave of a GUID with no erase of it already queued keeps the invariant |
| RoomInvariants.SessionEditKeepsInv | src/Server/Room/Room.cpp:325-350 | replacing sessions without adding or removing GUIDs, as `Walk`, `AddStatus` and `RemoveStatus` do, keeps the invariant |
| RoomInvariants.StepKeepsInv | src/Server/Room/Room.cpp:98-184 | one disciplined call — enter, leave, walk, add or remove a status, or a tick — keeps the invariant |
| RoomInvariants.RunKeepsInv | src/Server/Room/Room.cpp:98-184 | along any disciplined sequence of such calls the invariant holds, so the count never exceeds capacity |
| RoomInvariants.JoinCompletesOnNextUpdate | src/Server/Room/Room.cpp:118-148 | an admitted avatar is not in the map or counted before `Update`; after one `Update` its GUID is in the map, both counters are up by one, and RoomReady is sent |
| RoomInvariants.LeaveCompletesOnNextUpdate | src/Server/Room/Room.cpp:152-184 | the leaver stays in the map until `Update`, which erases it and takes one from both counters |
| RoomInvariants.DrainTwo | src/Server/Room/Room.cpp:411 | two queued commands run in queue order |
| RoomInvariants.AdmitTwo | src/Server/Room/Room.cpp:101-131 | with room left and nothing queued, two new avatars are both admitted with their drawn GUIDs, both joins are queued in order, and the map and counters are untouched |
| RoomInvariants.UpdateTwoJoins | src/Server/Room/Room.cpp:137-141 | a tick over two queued joins adds both avatars' current GUIDs to the map, the later one winning a shared GUID, and counts two |
| RoomInvariants.CapacityOverrun | src/Server/Room/Room.cpp:108-140 | with one free slot, two different avatars admitted before a tick both succeed and the room ends one over capacity |
| RoomInvariants.GuidCollisionMiscounts | src/Server/Room/Room.cpp:124-140 | two admissions drawing the same GUID leave one more session but two more counted, and the later avatar wins the entry |
| RoomInvariants.RejoinedGuidLeftTwice | src/Server/Room/Room.cpp:152-184 | after a leave and a join that draws the leaver's GUID, the GUID will be held again, yet a second leave of the same avatar breaks the discipline, since its erase would hit the entry already queued for erase |
| RoomInvariants.DoubleEnterBeforeTick | src/Server/Room/Room.cpp:100-139 | the same avatar entering twice before a tick is admitted both times, breaking the discipline; the tick finds it under its second GUID only, holds one session for it but counts it twice |
| Registration.ApproveName | src/Server/Socket/Opcode/Packets/Client/RegistrationHandler.cpp:36-74 | a taken name is NAME_TAKEN whatever it looks like; otherwise over 15 characters is TOO_LONG and under 3 is UNACCEPTABLE_TO_STAFF, both before characters are looked at; in between it is UNACCEPTABLE_TO_STAFF_2 exactly when it holds one of the forbidden characters, else VALID |
| Registration.ApproveNameAsWritten | src/Server/Socket/Opcode/Packets/Client/RegistrationHandler.cpp:36-74 | the handler as written: a taken name is NAME_TAKEN, then over 15 characters TOO_LONG and under 3 UNACCEPTABLE_TO_STAFF; UNACCEPTABLE_TO_STAFF_2 only for a name sharing a forbidden character; no answer at all only when the forbidden string is longer than 255 |
| Registration.ApproveNameAsWrittenAgrees | src/Server/Socket/Opcode/Packets/Client/RegistrationHandler.cpp:58-66 | with at most 255 forbidden characters the 8-bit loop gives exactly the rule's verdict |
| Registration.ApproveNameAsWrittenHangs | src/Server/Socket/Opcode/Packets/Client/RegistrationHandler.cpp:58-66 | a 256-character forbidden string sharing nothing with the name makes the 8-bit loop run forever where the rule says VALID |
| Registration.ApprovePassword | src/Server/Socket/Opcode/Packets/Client/RegistrationHandler.cpp:76-112 | under 6 characters is TOO_SHORT and over 9 is TOO_LONG with no other checks; otherwise a password found inside the name is USER_NAME_SIMILIAR, overriding the rest; else REQUIRES_NUMBERS exactly when each of the filter's first ten characters, read up to its NUL terminator, is in the password, else VALID |
| Registration.ShortFilterStopsAtTerminator | src/Server/Socket/Opcode/Packets/Client/RegistrationHandler.cpp:94-101 | a filter under ten characters with a NUL-free password always passes the test, at the terminator at the latest, and never reads past it |
| Registration.LiteralNumberRuleNeverFails | src/Server/Socket/Opcode/Packets/Client/RegistrationHandler.cpp:94-104 | with ten distinct filter characters, a password of acceptable length always passes the literal number test |
| Registration.LiteralNumberRuleAdmitsNoDigits | src/Server/Socket/Opcode/Packets/Client/RegistrationHandler.cpp:94-104 | "abcdef" passes the literal test with filter "0123456789" but holds no digit |
| Registration.ApprovePasswordIntended | src/Server/Socket/Opcode/Packets/Client/RegistrationHandler.cpp:92-104 | with the number test as the comment describes it, over any filter, a VALID password always holds one of the filter's first ten characters |
| Registration.EmailAccepted | src/Server/Socket/Opcode/Packets/Client/RegistrationHandler.cpp:130-136 | accepted exactly when one of the six listed domains occurs anywhere in the address |
| Registration.HandleApproveEmail | src/Server/Socket/Opcode/Packets/Client/RegistrationHandler.cpp:114-142 | ApproveEmail exactly when a listed domain occurs, RejectedEmail otherwise |
| Registration.HandleValidateParentEmail | src/Server/Socket/Opcode/Packets/Client/RegistrationHandler.cpp:217-248 | `Validate` is true exactly when a listed domain occurs, false otherwise |
| Registration.DomainNeedNotBeSuffix | src/Server/Socket/Opcode/Packets/Client/RegistrationHandler.cpp:131 | a domain followed by more text still matches |
| Registration.NormaliseGender | src/Server/Socket/Opcode/Packets/Client/RegistrationHandler.cpp:186-189 | "M" becomes "Male" and anything else "Female" |
| Registration.DecodeRegistration | src/Server/Socket/Opcode/Packets/Client/RegistrationHandler.cpp:154-189 | ids 2, 4, 7 and 8 give username, figure, email and birthday as the content of the last pair with that id, or "" when none has it; id 5 gives the gender the same way, then normalised; other ids are ignored |
| Registration.FieldFromStep | src/Server/Socket/Opcode/Packets/Client/RegistrationHandler.cpp:159-179 | one more pair replaces the field exactly when its id matches |
| WorldTimer.Add32 | src/Server/main.cpp:97 | `uint32` addition: the plain sum when it fits, else the sum less 2^32 |
| WorldTimer.NextSleep | src/Server/main.cpp:97-103 | when the tick fits in the period plus the previous sleep, the sleep is the rest; otherwise 0; it never exceeds that budget and the subtraction never underflows |
| WorldTimer.MainLoop | src/Server/main.cpp:86-104 | `UpdateWorld` runs once per pass with that pass's tick, and each pass's sleep is computed from that tick and the previous pass's sleep (0 at the start) |
| WorldTimer.SleepsChain | src/Server/main.cpp:97-103 | the first sleep is computed from the starting sleep, and each later sleep from the one before |
| WorldTimer.SleepsStayWithinPeriod | src/Server/main.cpp:97-103 | when every tick is at least the previous sleep and twice the period fits in 32 bits, no sleep exceeds the period |
| WorldTimer.ShortTicksAccumulate | src/Server/main.cpp:97-103 | zero-length ticks let the sleep grow past the period: 500, 1000, 1500 ms |

## Left out

- Sockets, packet serialisation and `SendPacket`: every send is an event in the room's log; string conversions of the fields are not modelled.
- Messenger updates and `DestroyRoom`: only logged as `MessengerUpdate` and `RoomDetached` events.
- The database: the name lookup is the boolean `taken`; the account insert, SHA1 hashing and the registration defaults it writes are not modelled.
- Configuration: the forbidden-character string, the password filter and the update period are parameters.
- Random numbers: `GenerateGUID` is the `guid` parameter of `EnterRoom`, ranging over [1, 9999].
- The path finder search, `CreatePath` and `ProcessActions`: `Walk` and `Update` take them as function parameters.
- Item, trigger and walkway registries: functions from a position to an optional item or walkway; triggers are kept by name.
- Threads: the deferred queue is a plain command sequence drained by `Update`.
- Pointer aliasing: a queued join names its avatar by account id, which stands for the `Habbo*` the callback holds, so one avatar object per account is assumed. Changes made to a waiting avatar through the room (a second `EnterRoom`) are seen when its join runs. Once a session exists it holds its own copy, and changes to the avatar made outside the room are not seen.
- Room.Apply: a second queued leave for one GUID erases by key; the source erases the iterator taken at the first leave a second time, which is undefined, even when a join in between has re-inserted the GUID. `RoomInvariants.LeaveRoomKeepsInv` and the discipline exclude any second leave while one is queued.
- Room.Update: `ProcessActions` is assumed not to add or remove sessions; a fault inside one session's step is not modelled.
- PathFinder.CheckForInteractiveObjects: applied to one session; the source changes statuses through the room by the avatar's GUID, which may reach another session after a GUID collision.
- Avatar.UpdatePosition: head and body rotation are one field, because `Habbo` is not part of this model.
- Avatar.Status: only the five statuses the room reads; other bits of the status word are not modelled.
- Room.Drain: its contract is only a frame; the effect of a drain is stated by `RoomInvariants.DrainKeys` and `RoomInvariants.DrainKeepsCount`.
- Characters: a Dafny `char` stands for one byte of the source's `std::string`, and the model does not restrict it below 256. Length bounds (names of 3 to 15, passwords of 6 to 9), the 8-bit index wrap of the name loop, `find` and the `uint8` height-map cell all count bytes in the source. A multi-byte UTF-8 character would count as several characters there and as one here.
- Counters are unbounded integers; `uint32` wrap-around on a decrement below zero is not modelled (it needs an erase that breaks the invariant first).
- TileGrid.LoadGridData: a row two or more characters shorter than the first is excluded by precondition. Reading at the row's length gives its NUL terminator and is modelled, but any read beyond that is undefined behaviour of `std::string::operator[]`.
- Registration.DecodeRegistration: the direct-mail flag and password read after the six pairs, and the skipped bytes, are not modelled.
- Registration.ApprovePassword: `strstr` stops at an embedded NUL, which is not modelled. The filter loop reads its first ten characters unchecked; reading at the filter's length gives the NUL terminator and is modelled. The precondition excludes only the inputs that read beyond it: a filter of at most eight characters, all present in a password that also holds a NUL.
- `HandleClientAC`: its age check is commented out and the live code always answers `Validate=true`. `HandleGDate`, `HandleParentEmailRequired` and `HandleCoppaRegGetRealTime` send fixed replies. None of them is modelled.
- `main.cpp` outside the loop (bootstrap, logging, the listener, `StopWorld`) and the sleep call itself.
- `Quad/QuadEngine.h` and `Network/DatabaseManager.h` are network and connection-pool plumbing and are not part of this model.
- The read-only queries (`HasStatus`, `FindHabboByName`, `GetCcts`) return no room state, so "they never mutate the room" holds by construction and has no lemma.

## Findings

| source | as written | input that shows it | evidently intended | confidence | as-written member | corrected member |
|---|---|---|---|---|---|---|
| src/Server/Socket/Opcode/Packets/Client/RegistrationHandler.cpp:58 | the forbidden-character loop counts with `uint8`, which wraps after 255 | forbidden string of 256 `#`, name "bobby": the loop never ends | scan every forbidden character once | high; not executed | Registration.ApproveNameAsWrittenHangs | Registration.ApproveName |
| src/Server/Socket/Opcode/Packets/Client/RegistrationHandler.cpp:94-104 | the test passes as soon as one filter character is missing from the password | filter "0123456789", password "abcdef": no digit, yet accepted; with distinct filter characters no 6-9 character password is ever refused | require at least one of the filter's first ten characters | medium (the filter's contents are configuration); not executed | Registration.LiteralNumberRuleNeverFails | Registration.ApprovePasswordIntended |
| src/Server/Room/Room.cpp:223 | the occupant's description takes the joiner's pool figure | pool room, occupant and joiner with different pool figures | the occupant's own pool figure | medium; not executed | Room.AddFigureShowsJoinersPoolFigure | Room.AddFigure |

The password handler is modelled as written (`Registration.ApprovePassword`); the
corrected variant stands beside it. The capacity and GUID traps described above
are kept as written as well, with their counterexamples proved.

=== FILE: avatar.dfy ===
/** The avatar (a `Habbo`) and its per-room session record (`RoomHabboInfo`). */
module Avatar {
  import opened Wrappers

  /** The behavioural statuses a session can carry; the source keeps them as
      bits of an unsigned word. */
  datatype Status = Sitting | Walking | Dancing | Waving | Swimming

  /** The part of the avatar the room reads and writes. `roomGuid` is the
      room-scoped identifier last assigned by `EnterRoom`; `id` is the
      account id, used here as the recipient of outbound packets. */
  datatype Habbo = Habbo(id: nat, name: string, figure: string, gender: string,
                         motto: string, poolFigure: string,
                         x: int, y: int, z: int, rotation: int, roomGuid: nat)

  /** The `WayPoints` path state: whether a path is active and the end
      position last set, which the constructor leaves unset. */
  datatype WayPoints = WayPoints(activePath: bool, end: Option<(int, int)>)

  /** A session: the avatar, its statuses and its path state. */
  datatype Session = Session(habbo: Habbo, statuses: set<Status>, path: WayPoints)

  /** `Habbo::UpdatePosition`: moves the avatar and turns it. */
  function UpdatePosition(h: Habbo, x: int, y: int, z: int, rotation: int): (h': Habbo)
    ensures h'.x == x && h'.y == y && h'.z == z && h'.rotation == rotation
    ensures h'.(x := h.x, y := h.y, z := h.z, rotation := h.rotation) == h
  {
    h.(x := x, y := y, z := z, rotation := rotation)
  }
}

=== FILE: path_finder.dfy ===
/** The `WayPoints` members that are visible: construction, the end position
    setter, and the automatic sit-on-object rule. */
module PathFinder {
  import opened Wrappers
  import opened TileGrid
  import opened Avatar

  const SitBehaviour: string := "can_sit_on_top"

  /** `int16`, the parameter type of `SetEndPosition`. */
  type Int16 = x: int | -0x8000 <= x < 0x8000

  /** A freshly constructed `WayPoints`. */
  function NewWayPoints(): (w: WayPoints)
    ensures !w.activePath && w.end.None?
  {
    WayPoints(false, None)
  }

  /** `SetEndPosition`: records the end position and touches nothing else. */
  function SetEndPosition(w: WayPoints, x: Int16, y: Int16): (w': WayPoints)
    ensures w'.end == Some((x as int, y as int))
    ensures w'.activePath == w.activePath
  {
    w.(end := Some((x as int, y as int)))
  }

  /** The item under the avatar, when its tile exists and holds one. */
  function ItemUnder(s: Session, g: Grid): (r: Option<Item>)
    ensures r.Some? <==> Pos(s.habbo.x, s.habbo.y) in g.tiles && g.tiles[Pos(s.habbo.x, s.habbo.y)].item.Some?
    ensures r.Some? ==> r.value == g.tiles[Pos(s.habbo.x, s.habbo.y)].item.value
  {
    match GetTile(g, s.habbo.x, s.habbo.y)
    case None => None
    case Some(t) => t.item
  }

  /** `CheckForInteractiveObjects`: standing on a sit item stops dancing, starts
      sitting and snaps the avatar onto the item; anything else leaves the
      session alone. */
  function CheckForInteractiveObjects(s: Session, g: Grid): (s': Session)
    ensures ItemUnder(s, g).None? ==> s' == s
    ensures ItemUnder(s, g).Some? && ItemUnder(s, g).value.behaviour != SitBehaviour ==> s' == s
    ensures ItemUnder(s, g).Some? && ItemUnder(s, g).value.behaviour == SitBehaviour ==>
      var item := ItemUnder(s, g).value;
      && Dancing !in s'.statuses
      && Sitting in s'.statuses
      && (forall st :: st != Dancing && st != Sitting ==> (st in s'.statuses <==> st in s.statuses))
      && s'.habbo.x == item.x && s'.habbo.y == item.y
      && s'.habbo.z == item.z && s'.habbo.rotation == item.rotation
      && s'.habbo.(x := s.habbo.x, y := s.habbo.y, z := s.habbo.z, rotation := s.habbo.rotation) == s.habbo
      && s'.path == s.path
  {
    match ItemUnder(s, g)
    case Some(item) =>
      if item.behaviour == SitBehaviour then
        var statuses := (s.statuses - {Dancing}) + {Sitting};
        s.(statuses := statuses, habbo := UpdatePosition(s.habbo, item.x, item.y, item.z, item.rotation))
      else s
    case None => s
  }

  /** When the sit item stands on its own tile, the rule is idempotent: a second
      check finds the same item and changes nothing more. */
  lemma SitIsIdempotent(s: Session, g: Grid)
    requires forall p :: p in g.tiles && g.tiles[p].item.Some? ==>
               g.tiles[p].item.value.x == p.x && g.tiles[p].item.value.y == p.y
    ensures CheckForInteractiveObjects(CheckForInteractiveObjects(s, g), g) == CheckForInteractiveObjects(s, g)
  {
  }
}

=== FILE: registration.dfy ===
/** The registration checks of the client handler, with the database lookup and
    the configuration strings as inputs. */
module Registration {
  import opened Wrappers
  import opened Text

  // ---------------------------------------------------------------------
  // Names.

  datatype NameVerdict = NameValid | NameTooLong | NameUnacceptableToStaff
                       | NameUnacceptableToStaff2 | NameTaken

  /** Some character of `words` occurs in `name`. */
  predicate SharesChar(name: string, words: string) {
    exists i :: 0 <= i < |words| && words[i] in name
  }

  /** The name verdict, declaratively: a taken name is taken whatever it looks
      like; otherwise length is judged before characters. */
  function NameRule(name: string, taken: bool, words: string): NameVerdict {
    if taken then NameTaken
    else if |name| > 15 then NameTooLong
    else if |name| < 3 then NameUnacceptableToStaff
    else if SharesChar(name, words) then NameUnacceptableToStaff2
    else NameValid
  }

  /** `HandleApproveUsername` with a counter wide enough for any forbidden
      string: the scan stops at the first forbidden character found in the
      name. */
  method ApproveName(name: string, taken: bool, words: string) returns (v: NameVerdict)
    ensures taken ==> v == NameTaken
    ensures !taken && |name| > 15 ==> v == NameTooLong
    ensures !taken && |name| < 3 ==> v == NameUnacceptableToStaff
    ensures !taken && 3 <= |name| <= 15 ==>
              (v == NameUnacceptableToStaff2 <==> SharesChar(name, words))
              && (v == NameValid <==> !SharesChar(name, words))
  {
    v := NameValid;
    if !taken {
      if |name| > 15 {
        v := NameTooLong;
      } else if |name| < 3 {
        v := NameUnacceptableToStaff;
      } else {
        var i := 0;
        while i < |words|
          invariant 0 <= i <= |words|
          invariant forall j :: 0 <= j < i ==> words[j] !in name
        {
          if words[i] in name {
            v := NameUnacceptableToStaff2;
            return;
          }
          i := i + 1;
        }
      }
    } else {
      v := NameTaken;
    }
  }

  /** The forbidden-character scan as written, with an 8-bit counter: it visits
      indexes 0..255 and then wraps to 0, so a forbidden string longer than 255
      characters with no match in its first 256 never ends (None). */
  function ScanUint8(name: string, words: string, i: nat): (r: Option<bool>)
    requires i <= 255
    decreases 255 - i
    ensures r == Some(true) ==> exists j :: i <= j < |words| && words[j] in name
    ensures r.None? ==> |words| > 255
  {
    if !(i < |words|) then Some(false)
    else if words[i] in name then Some(true)
    else if i == 255 then None
    else ScanUint8(name, words, i + 1)
  }

  /** `HandleApproveUsername` as written; None stands for the loop that never
      ends. */
  function ApproveNameAsWritten(name: string, taken: bool, words: string): (v: Option<NameVerdict>)
    ensures taken ==> v == Some(NameTaken)
    ensures !taken && |name| > 15 ==> v == Some(NameTooLong)
    ensures !taken && |name| < 3 ==> v == Some(NameUnacceptableToStaff)
    ensures v == Some(NameUnacceptableToStaff2) ==> SharesChar(name, words)
    ensures v.None? ==> !taken && 3 <= |name| <= 15 && |words| > 255
  {
    if taken then Some(NameTaken)
    else if |name| > 15 then Some(NameTooLong)
    else if |name| < 3 then Some(NameUnacceptableToStaff)
    else match ScanUint8(name, words, 0)
      case None => None
      case Some(found) => Some(if found then NameUnacceptableToStaff2 else NameValid)
  }

  lemma {:induction false} ScanUint8Short(name: string, words: string, i: nat)
    requires i <= 255 && |words| <= 255
    ensures ScanUint8(name, words, i) == Some(exists j :: i <= j < |words| && words[j] in name)
    decreases 255 - i
  {
    if i < |words| && words[i] !in name {
      ScanUint8Short(name, words, i + 1);
      assert (exists j :: i <= j < |words| && words[j] in name) <==>
             (exists j :: i + 1 <= j < |words| && words[j] in name);
    }
  }

  /** Up to 255 forbidden characters, the 8-bit loop decides exactly the rule. */
  lemma ApproveNameAsWrittenAgrees(name: string, taken: bool, words: string)
    requires |words| <= 255
    ensures ApproveNameAsWritten(name, taken, words) == Some(NameRule(name, taken, words))
  {
    ScanUint8Short(name, words, 0);
  }

  lemma {:induction false} ScanUint8Misses(name: string, words: string, i: nat)
    requires i <= 255 && |words| > 255
    requires forall j :: i <= j < |words| ==> words[j] !in name
    ensures ScanUint8(name, words, i) == None
    decreases 255 - i
  {
    if i < 255 {
      ScanUint8Misses(name, words, i + 1);
    }
  }

  /** A 256-character forbidden string that shares nothing with an acceptable
      name makes the loop run forever, where the rule answers NAME_VALID. */
  lemma ApproveNameAsWrittenHangs()
    ensures var words := seq(256, _ => '#');
            && ApproveNameAsWritten("bobby", false, words) == None
            && NameRule("bobby", false, words) == NameValid
  {
    var words := seq(256, _ => '#');
    ScanUint8Misses("bobby", words, 0);
    assert !SharesChar("bobby", words);
  }

  // ---------------------------------------------------------------------
  // Passwords.

  datatype PasswordVerdict = PasswordValid | PasswordTooShort | PasswordTooLong
                           | PasswordRequiresNumbers | PasswordUserNameSimilar

  /** The literal "number" test: true as soon as one of the characters the
      loop reads from the filter, its first ten or up to its terminating NUL,
      is missing from the password. */
  predicate UsedNumber(password: string, filter: string) {
    exists i :: 0 <= i < 10 && i <= |filter| && CharAt(filter, i) !in password
  }

  /** The loop never reads past the filter's terminator: the filter has at
      least nine characters, or the loop stops at a filter character or at
      the NUL missing from the password. */
  predicate FilterReadDefined(password: string, filter: string) {
    |filter| >= 9 || Nul !in password || exists i :: 0 <= i < |filter| && filter[i] !in password
  }

  /** `HandleApprovePassword` as written. Length is judged first; then a
      password holding every character the loop reads needs "numbers"; then a
      password found inside the name is "similar", overriding the former. */
  method ApprovePassword(name: string, password: string, filter: string) returns (v: PasswordVerdict)
    requires 6 <= |password| <= 9 ==> FilterReadDefined(password, filter)
    ensures |password| < 6 ==> v == PasswordTooShort
    ensures |password| > 9 ==> v == PasswordTooLong
    ensures 6 <= |password| <= 9 ==>
              && (IsSubstring(password, name) ==> v == PasswordUserNameSimilar)
              && (!IsSubstring(password, name) && !UsedNumber(password, filter) ==> v == PasswordRequiresNumbers)
              && (!IsSubstring(password, name) && UsedNumber(password, filter) ==> v == PasswordValid)
  {
    v := PasswordValid;
    if |password| < 6 {
      v := PasswordTooShort;
    } else if |password| > 9 {
      v := PasswordTooLong;
    } else {
      var usedNumber := false;
      var i := 0;
      while i < 10
        invariant 0 <= i <= 10
        invariant !usedNumber ==> forall j :: 0 <= j < i ==> j <= |filter| && CharAt(filter, j) in password
        invariant !usedNumber && i < 10 ==> i <= |filter|
        invariant usedNumber ==> UsedNumber(password, filter)
      {
        if CharAt(filter, i) !in password {
          usedNumber := true;
          break;
        }
        FilterHitsSoFar(password, filter, i);
        i := i + 1;
      }
      if !usedNumber {
        v := PasswordRequiresNumbers;
      }
      if IsSubstring(password, name) {
        v := PasswordUserNameSimilar;
      }
    }
  }

  /** Having found the characters read at `0..i` in the password, the filter
      characters among them are in the password. */
  lemma FilterHitsSoFar(password: string, filter: string, i: nat)
    requires forall j :: 0 <= j <= i ==> j <= |filter| && CharAt(filter, j) in password
    ensures forall j :: 0 <= j <= i && j < |filter| ==> filter[j] in password
  {
    forall j | 0 <= j <= i && j < |filter| ensures filter[j] in password {
      assert CharAt(filter, j) == filter[j];
    }
  }

  /** A filter shorter than ten characters, an unset one included, ends the
      loop at its terminator: a password without NUL always passes the literal
      test. */
  lemma ShortFilterStopsAtTerminator(password: string, filter: string)
    requires |filter| < 10 && Nul !in password
    ensures FilterReadDefined(password, filter)
    ensures UsedNumber(password, filter)
  {
    assert CharAt(filter, |filter|) !in password;
  }

  lemma {:induction false} DistinctCard(s: string)
    ensures |set c | c in s| <= |s|
  {
    if |s| > 0 {
      DistinctCard(s[1..]);
      assert (set c | c in s) == {s[0]} + (set c | c in s[1..]);
    }
  }

  lemma {:induction false} PrefixCard(filter: string, n: nat)
    requires n <= |filter|
    requires forall i, j :: 0 <= i < j < n ==> filter[i] != filter[j]
    ensures |set i | 0 <= i < n :: filter[i]| == n
  {
    if n > 0 {
      PrefixCard(filter, n - 1);
      assert (set i | 0 <= i < n :: filter[i]) == (set i | 0 <= i < n - 1 :: filter[i]) + {filter[n - 1]};
    }
  }

  lemma SubsetCard<T>(a: set<T>, b: set<T>)
    requires a <= b
    ensures |a| <= |b|
  {
    assert b == a + (b - a);
  }

  /** With ten distinct filter characters, the literal test never fails for a
      password of acceptable length: nine characters cannot hold ten distinct
      ones. So PASSWORD_REQUIRES_NUMBERS is never sent. */
  lemma LiteralNumberRuleNeverFails(password: string, filter: string)
    requires 6 <= |password| <= 9 && |filter| >= 10
    requires forall i, j :: 0 <= i < j < 10 ==> filter[i] != filter[j]
    ensures UsedNumber(password, filter)
  {
    if !UsedNumber(password, filter) {
      var wanted := set i | 0 <= i < 10 :: filter[i];
      var held := set c | c in password;
      PrefixCard(filter, 10);
      DistinctCard(password);
      assert wanted <= held by {
        forall c | c in wanted ensures c in held {
          var i :| 0 <= i < 10 && filter[i] == c;
          assert CharAt(filter, i) == filter[i];
        }
      }
      SubsetCard(wanted, held);
      assert false;
    }
  }

  /** The test the comment describes: the password holds at least one of the
      filter's first ten characters (the digits, when the filter starts with
      them), reading no further than the filter goes. */
  predicate HasNumber(password: string, filter: string) {
    exists i :: 0 <= i < 10 && i < |filter| && filter[i] in password
  }

  /** `HandleApprovePassword` with the number test as intended. */
  method ApprovePasswordIntended(name: string, password: string, filter: string) returns (v: PasswordVerdict)
    ensures |password| < 6 ==> v == PasswordTooShort
    ensures |password| > 9 ==> v == PasswordTooLong
    ensures 6 <= |password| <= 9 ==>
              && (IsSubstring(password, name) ==> v == PasswordUserNameSimilar)
              && (!IsSubstring(password, name) && !HasNumber(password, filter) ==> v == PasswordRequiresNumbers)
              && (!IsSubstring(password, name) && HasNumber(password, filter) ==> v == PasswordValid)
    ensures v == PasswordValid ==> HasNumber(password, filter)
  {
    v := PasswordValid;
    if |password| < 6 {
      v := PasswordTooShort;
    } else if |password| > 9 {
      v := PasswordTooLong;
    } else {
      var hasNumber := false;
      var i := 0;
      while i < 10 && i < |filter|
        invariant 0 <= i <= 10
        invariant !hasNumber ==> forall j :: 0 <= j < i && j < |filter| ==> filter[j] !in password
        invariant hasNumber ==> HasNumber(password, filter)
      {
        if filter[i] in password {
          hasNumber := true;
          break;
        }
        i := i + 1;
      }
      if !hasNumber {
        v := PasswordRequiresNumbers;
      }
      if IsSubstring(password, name) {
        v := PasswordUserNameSimilar;
      }
    }
  }

  /** A digit-free password passes the literal test but not the intended one. */
  lemma LiteralNumberRuleAdmitsNoDigits()
    ensures UsedNumber("abcdef", "0123456789")
    ensures !HasNumber("abcdef", "0123456789")
  {
    assert CharAt("0123456789", 0) !in "abcdef";
  }

  // ---------------------------------------------------------------------
  // Email addresses.

  /** The six domains both email handlers accept, in their order. */
  const AcceptedEmails: seq<string> :=
    ["@hotmail.com", "@hotmail.co.uk", "@gmail.com", "@icloud.com", "@outlook.co.uk", "@outlook.com"]

  /** Accepted iff one of the six domains occurs anywhere in the address. */
  method EmailAccepted(email: string) returns (ok: bool)
    ensures ok <==> exists i :: 0 <= i < |AcceptedEmails| && IsSubstring(AcceptedEmails[i], email)
  {
    var i := 0;
    while i < |AcceptedEmails|
      invariant 0 <= i <= |AcceptedEmails|
      invariant forall j :: 0 <= j < i ==> !IsSubstring(AcceptedEmails[j], email)
    {
      if IsSubstring(AcceptedEmails[i], email) {
        return true;
      }
      i := i + 1;
    }
    return false;
  }

  datatype EmailReply = ApproveEmail | RejectedEmail

  /** `HandleApproveEmail`. */
  method HandleApproveEmail(email: string) returns (reply: EmailReply)
    ensures reply == ApproveEmail <==> exists i :: 0 <= i < |AcceptedEmails| && IsSubstring(AcceptedEmails[i], email)
  {
    var ok := EmailAccepted(email);
    reply := if ok then ApproveEmail else RejectedEmail;
  }

  /** `HandleValidateParentEmail`: the same test, answered as the `Validate`
      flag. */
  method HandleValidateParentEmail(email: string) returns (validate: bool)
    ensures validate <==> exists i :: 0 <= i < |AcceptedEmails| && IsSubstring(AcceptedEmails[i], email)
  {
    validate := EmailAccepted(email);
  }

  /** The domain need not end the address. */
  lemma DomainNeedNotBeSuffix()
    ensures IsSubstring(AcceptedEmails[2], "x" + "@gmail.com" + ".example.org")
  {
    var email := "x" + "@gmail.com" + ".example.org";
    assert email[1..11] == "@gmail.com";
    assert OccursAt("@gmail.com", email, 1);
  }

  // ---------------------------------------------------------------------
  // Registration fields.

  datatype Registration = Registration(username: string, figure: string, gender: string,
                                       email: string, birthday: string)

  /** The content of the last field with this id, if any. */
  predicate IsLastWithId(fields: seq<(nat, string)>, id: nat, i: int) {
    0 <= i < |fields| && fields[i].0 == id && forall j :: i < j < |fields| ==> fields[j].0 != id
  }

  /** What a decoded field holds: the last content under its id, or "" when no
      field has that id. */
  predicate FieldFrom(fields: seq<(nat, string)>, id: nat, value: string) {
    if exists i :: 0 <= i < |fields| && fields[i].0 == id
    then exists i :: 0 <= i < |fields| && IsLastWithId(fields, id, i) && value == fields[i].1
    else value == ""
  }

  /** The gender as stored: "Male" for "M", "Female" for anything else. */
  function NormaliseGender(g: string): (r: string)
    ensures g == "M" ==> r == "Male"
    ensures g != "M" ==> r == "Female"
  {
    if g == "M" then "Male" else "Female"
  }

  /** The field loop of `HandleRegisteration`: six (id, content) pairs; ids 2,
      4, 5, 7 and 8 fill username, figure, gender, email and birthday, a later
      pair overwrites an earlier one, other ids are skipped; then the gender is
      normalised. */
  method DecodeRegistration(fields: seq<(nat, string)>) returns (reg: Registration)
    requires |fields| == 6
    ensures FieldFrom(fields, 2, reg.username)
    ensures FieldFrom(fields, 4, reg.figure)
    ensures FieldFrom(fields, 7, reg.email)
    ensures FieldFrom(fields, 8, reg.birthday)
    ensures exists g :: FieldFrom(fields, 5, g) && reg.gender == NormaliseGender(g)
  {
    var username, figure, gender, email, birthday := "", "", "", "", "";
    var i := 0;
    while i < 6
      invariant 0 <= i <= 6
      invariant FieldFrom(fields[..i], 2, username)
      invariant FieldFrom(fields[..i], 4, figure)
      invariant FieldFrom(fields[..i], 5, gender)
      invariant FieldFrom(fields[..i], 7, email)
      invariant FieldFrom(fields[..i], 8, birthday)
    {
      var (id, content) := fields[i];
      FieldFromStep(fields, i, 2, username, if id == 2 then content else username);
      FieldFromStep(fields, i, 4, figure, if id == 4 then content else figure);
      FieldFromStep(fields, i, 5, gender, if id == 5 then content else gender);
      FieldFromStep(fields, i, 7, email, if id == 7 then content else email);
      FieldFromStep(fields, i, 8, birthday, if id == 8 then content else birthday);
      if id == 2 {
        username := content;
      } else if id == 4 {
        figure := content;
      } else if id == 5 {
        gender := content;
      } else if id == 7 {
        email := content;
      } else if id == 8 {
        birthday := content;
      }
      i := i + 1;
    }
    assert fields[..6] == fields;
    reg := Registration(username, figure, NormaliseGender(gender), email, birthday);
  }

  /** One more pair: its content becomes the field when the id matches, and
      the field is kept otherwise. */
  lemma FieldFromStep(fields: seq<(nat, string)>, i: nat, id: nat, before: string, after: string)
    requires i < |fields|
    requires FieldFrom(fields[..i], id, before)
    requires after == if fields[i].0 == id then fields[i].1 else before
    ensures FieldFrom(fields[..i + 1], id, after)
  {
    var pre, cur := fields[..i], fields[..i + 1];
    assert forall j :: 0 <= j < i ==> cur[j] == pre[j];
    assert cur[i] == fields[i];
    if fields[i].0 == id {
      assert IsLastWithId(cur, id, i);
    } else if exists j :: 0 <= j < |pre| && pre[j].0 == id {
      var j :| 0 <= j < |pre| && IsLastWithId(pre, id, j) && before == pre[j].1;
      assert IsLastWithId(cur, id, j);
    } else {
      assert !exists j :: 0 <= j < |cur| && cur[j].0 == id;
    }
  }
}

=== FILE: room.dfy ===
/** A room: its grid, its session map keyed by room GUID, the two occupancy
    counters, the deferred command queue drained by `Update`, its zone tags
    (CCTs), and the log of everything sent out. */
module Room {
  import opened Wrappers
  import opened TileGrid
  import opened Avatar
  import opened PathFinder

  /** `GenerateGUID` draws from this range; which value it draws is an input. */
  type GeneratedGuid = g: nat | 1 <= g <= 9999 witness 1

  /** `uint16`, the coordinate type `Walk` receives. */
  type Uint16 = x: int | 0 <= x < 0x1_0000

  const PoolTag: string := "hh_people_pool"

  datatype ConnectionError = RoomIsFull

  /** An avatar as the `HabboRoomObject` packet describes it. */
  datatype Figure = Figure(uniqueId: nat, id: nat, name: string, figure: string,
                           poolFigure: string, gender: string,
                           x: int, y: int, z: int, motto: string)

  /** Outbound messages, by tag and content; serialisation is not modelled.
      `MessengerUpdate` and `RoomDetached` record the calls into the messenger
      and `DestroyRoom`. */
  datatype Message =
    | RoomCantConnect(error: ConnectionError)
    | RoomReady(model: string, roomId: nat)
    | UserLeft(guid: nat)
    | RoomObject(figure: Figure)
    | UserStatus(guid: nat, x: int, y: int, z: int, rotation: int,
                 sitting: bool, walking: bool, dancing: bool, waving: bool, swimming: bool)
    | WorldObjects(items: seq<Item>)
    | ActiveObjects
    | Packet(payload: string)
    | MessengerUpdate
    | RoomDetached

  /** One entry of the outbound log: a message for one account. */
  datatype Event = Event(to: nat, msg: Message)

  /** A deferred completion, queued by `EnterRoom` / `LeaveRoom`. A join names
      the avatar itself, by account id, not a copy of it: the completion reads
      the avatar as it is when the queue is drained. */
  datatype Command = Join(account: nat) | Leave(guid: nat)

  datatype RoomState = RoomState(
    id: nat, model: string, isPublic: bool, door: Door, grid: Grid,
    sessions: map<nat, Session>,
    visitorsNow: int, visitorsMax: int,
    /** the category-wide counter, shared with the other rooms of the category */
    categoryVisitorsNow: int,
    pending: seq<Command>,
    /** the avatars the queued joins point at, by account id, as they are now */
    joining: map<nat, Habbo>,
    ccts: seq<string>,
    outbox: seq<Event>)

  // ---------------------------------------------------------------------
  // Iteration order of the session map: ascending GUID.

  predicate StrictlyIncreasing(s: seq<nat>) {
    forall i, j :: 0 <= i < j < |s| ==> s[i] < s[j]
  }

  /** `m` is the least element of `s`. */
  predicate IsLeast(m: nat, s: set<nat>) {
    m in s && forall k :: k in s ==> m <= k
  }

  lemma {:induction false} MinExists(s: set<nat>)
    requires s != {}
    ensures exists m :: IsLeast(m, s)
    decreases s
  {
    var x :| x in s;
    var rest := s - {x};
    if rest == {} {
      forall k | k in s ensures k == x {
        assert k !in rest;
      }
      assert IsLeast(x, s);
    } else {
      MinExists(rest);
      var m :| IsLeast(m, rest);
      var least := if x < m then x else m;
      forall k | k in s ensures least <= k {
        if k != x { assert k in rest; }
      }
      assert IsLeast(least, s);
    }
  }

  function MinKey(s: set<nat>): (m: nat)
    requires s != {}
    ensures m in s && forall k :: k in s ==> m <= k
  {
    MinExists(s);
    var m :| IsLeast(m, s); m
  }

  /** The keys of a map in the order `std::map` visits them. */
  function SortedKeys(s: set<nat>): (r: seq<nat>)
    ensures StrictlyIncreasing(r)
    ensures forall k :: k in r <==> k in s
    ensures |r| == |s|
    decreases s
  {
    if s == {} then []
    else
      var m := MinKey(s);
      var rest := SortedKeys(s - {m});
      assert forall k :: k in rest ==> m < k;
      [m] + rest
  }

  function Order(r: RoomState): (keys: seq<nat>)
    ensures StrictlyIncreasing(keys)
    ensures forall k :: k in keys <==> k in r.sessions
    ensures |keys| == |r.sessions|
  {
    SortedKeys(r.sessions.Keys)
  }

  // ---------------------------------------------------------------------
  // Fan-out.

  /** One copy of `m` to the avatar of each listed session, in list order. */
  function FanOut(sessions: map<nat, Session>, keys: seq<nat>, m: Message): (evs: seq<Event>)
    requires forall k :: k in keys ==> k in sessions
    ensures |evs| == |keys|
    ensures forall i :: 0 <= i < |keys| ==> evs[i] == Event(sessions[keys[i]].habbo.id, m)
  {
    if |keys| == 0 then [] else [Event(sessions[keys[0]].habbo.id, m)] + FanOut(sessions, keys[1..], m)
  }

  /** Fanning out over all keys reaches exactly the avatars of the map. */
  lemma FanOutReachesAll(sessions: map<nat, Session>, keys: seq<nat>, m: Message)
    requires forall k :: k in keys <==> k in sessions
    ensures forall e :: e in FanOut(sessions, keys, m) <==>
              e.msg == m && exists k :: k in sessions && sessions[k].habbo.id == e.to
  {
    var evs := FanOut(sessions, keys, m);
    forall e: Event | e.msg == m && exists k :: k in sessions && sessions[k].habbo.id == e.to
      ensures e in evs
    {
      var k :| k in sessions && sessions[k].habbo.id == e.to;
      var i :| 0 <= i < |keys| && keys[i] == k;
      assert evs[i] == e;
    }
  }

  /** `SendPacketToAll`: every session in the map receives the message once, in
      map order; nothing but the log changes. */
  function SendPacketToAll(r: RoomState, m: Message): (r': RoomState)
    ensures r' == r.(outbox := r'.outbox)
    ensures |r'.outbox| == |r.outbox| + |r.sessions|
    ensures r'.outbox[..|r.outbox|] == r.outbox
    ensures forall i :: |r.outbox| <= i < |r'.outbox| ==> r'.outbox[i].msg == m
    ensures forall e :: e in r'.outbox[|r.outbox|..] <==>
              e.msg == m && exists k :: k in r.sessions && r.sessions[k].habbo.id == e.to
  {
    var keys := Order(r);
    var evs := FanOut(r.sessions, keys, m);
    var r' := r.(outbox := r.outbox + evs);
    assert r'.outbox[|r.outbox|..] == evs;
    FanOutReachesAll(r.sessions, keys, m);
    r'
  }

  /** `SendUserLeftRoom`: the "user left" notice to every session in the map. */
  function SendUserLeftRoom(r: RoomState, guid: nat): (r': RoomState)
    ensures r' == r.(outbox := r'.outbox)
    ensures |r'.outbox| == |r.outbox| + |r.sessions| && r'.outbox[..|r.outbox|] == r.outbox
    ensures forall i :: |r.outbox| <= i < |r'.outbox| ==> r'.outbox[i].msg == UserLeft(guid)
  {
    var out := r.outbox + FanOut(r.sessions, Order(r), UserLeft(guid));
    assert out[..|r.outbox|] == r.outbox;
    r.(outbox := out)
  }

  /** The notices of `SendUserLeftRoom` reach exactly the avatars in the map:
      it is `SendPacketToAll` of the "user left" notice. */
  lemma SendUserLeftRoomReachesAll(r: RoomState, guid: nat)
    ensures var r' := SendUserLeftRoom(r, guid);
            forall e :: e in r'.outbox[|r.outbox|..] <==>
              e.msg == UserLeft(guid) && exists k :: k in r.sessions && r.sessions[k].habbo.id == e.to
  {
    assert SendUserLeftRoom(r, guid) == SendPacketToAll(r, UserLeft(guid));
  }

  // ---------------------------------------------------------------------
  // Joining and leaving.

  /** The result of `EnterRoom`: the room, the avatar after it, and the
      returned flag. */
  datatype Entry = Entry(room: RoomState, habbo: Habbo, admitted: bool)

  /** Where an admitted avatar appears: the walkway's destination, else the door. */
  function SpawnPoint(r: RoomState, walkway: Option<WalkWay>, h: Habbo): Habbo {
    match walkway
    case Some(w) => UpdatePosition(h, w.toX, w.toY, w.toZ, w.toRotation)
    case None => UpdatePosition(h, r.door.x, r.door.y, r.door.z, r.door.orientation)
  }

  /** Every queued join names an avatar the room holds. */
  predicate Bound(joining: map<nat, Habbo>, cmds: seq<Command>) {
    forall c :: c in cmds && c.Join? ==> c.account in joining
  }

  /** `EnterRoom`. A GUID already in the map short-circuits with `true`; a room
      whose live count has reached its capacity answers ROOM_IS_FULL; otherwise
      the avatar is placed, takes the drawn GUID and a join of that avatar is
      queued. The map and the counters never change here. The capacity test
      reads only the live count, not the joins still queued. */
  function EnterRoom(r: RoomState, h: Habbo, walkway: Option<WalkWay>, guid: GeneratedGuid): (e: Entry)
    ensures e.room.sessions == r.sessions && e.room.grid == r.grid
    ensures e.room.visitorsNow == r.visitorsNow
    ensures e.room.categoryVisitorsNow == r.categoryVisitorsNow
    ensures Bound(r.joining, r.pending) ==> Bound(e.room.joining, e.room.pending)
    ensures h.roomGuid in r.sessions ==> e == Entry(r, h, true)
    ensures h.roomGuid !in r.sessions && r.visitorsNow >= r.visitorsMax ==>
              && !e.admitted && e.habbo == h
              && e.room == r.(outbox := r.outbox + [Event(h.id, RoomCantConnect(RoomIsFull))])
    ensures h.roomGuid !in r.sessions && r.visitorsNow < r.visitorsMax ==>
              && e.admitted
              && e.habbo.roomGuid == guid && 1 <= e.habbo.roomGuid <= 9999
              && (walkway.Some? ==> e.habbo.x == walkway.value.toX && e.habbo.y == walkway.value.toY
                                    && e.habbo.z == walkway.value.toZ
                                    && e.habbo.rotation == walkway.value.toRotation)
              && (walkway.None? ==> e.habbo.x == r.door.x && e.habbo.y == r.door.y
                                    && e.habbo.z == r.door.z && e.habbo.rotation == r.door.orientation)
              && e.habbo.(x := h.x, y := h.y, z := h.z, rotation := h.rotation, roomGuid := h.roomGuid) == h
              && e.room.pending == r.pending + [Join(h.id)]
              && e.room.joining == r.joining[h.id := e.habbo]
              && e.room.outbox == r.outbox + [Event(h.id, MessengerUpdate)]
              && e.room == r.(pending := e.room.pending, joining := e.room.joining, outbox := e.room.outbox)
  {
    if h.roomGuid in r.sessions then Entry(r, h, true)
    else if r.visitorsNow >= r.visitorsMax then
      Entry(r.(outbox := r.outbox + [Event(h.id, RoomCantConnect(RoomIsFull))]), h, false)
    else
      var placed := SpawnPoint(r, walkway, h).(roomGuid := guid);
      var r' := r.(outbox := r.outbox + [Event(h.id, MessengerUpdate)],
                   pending := r.pending + [Join(h.id)],
                   joining := r.joining[h.id := placed]);
      Entry(r', placed, true)
  }

  /** The synchronous part of `LeaveRoom` for a session that is in the map:
      free its tile, tell the messenger, tell every session, detach. */
  function LeaveEffects(r: RoomState, guid: nat): RoomState
    requires guid in r.sessions
  {
    var leaver := r.sessions[guid].habbo;
    var freed := r.(grid := SetTileOccupied(r.grid, leaver.x, leaver.y, false),
                    outbox := r.outbox + [Event(leaver.id, MessengerUpdate)]);
    var told := SendUserLeftRoom(freed, leaver.roomGuid);
    told.(outbox := told.outbox + [Event(leaver.id, RoomDetached)])
  }

  /** Regrouping an appended log: the prefix stays in front. */
  lemma Regroup<T>(log: seq<T>, first: T, middle: seq<T>, last: T)
    ensures log + [first] + middle + [last] == log + ([first] + middle + [last])
    ensures (log + ([first] + middle + [last]))[..|log|] == log
  {
  }

  /** `LeaveEffects` frees the leaver's tile and brackets the notices with a
      messenger update and the detach, appended to the log. */
  lemma LeaveEffectsFrame(r: RoomState, guid: nat)
    requires guid in r.sessions
    ensures var r' := LeaveEffects(r, guid);
            var leaver := r.sessions[guid].habbo;
            && r' == r.(grid := r'.grid, outbox := r'.outbox)
            && r'.grid == SetTileOccupied(r.grid, leaver.x, leaver.y, false)
            && |r'.outbox| == |r.outbox| + |r.sessions| + 2
            && r'.outbox[..|r.outbox|] == r.outbox
            && r'.outbox[|r.outbox|] == Event(leaver.id, MessengerUpdate)
            && r'.outbox[|r'.outbox| - 1] == Event(leaver.id, RoomDetached)
  {
    var leaver := r.sessions[guid].habbo;
    var freed := r.(grid := SetTileOccupied(r.grid, leaver.x, leaver.y, false),
                    outbox := r.outbox + [Event(leaver.id, MessengerUpdate)]);
    var told := SendUserLeftRoom(freed, leaver.roomGuid);
    var notices := told.outbox[|freed.outbox|..];
    assert told.outbox == freed.outbox + notices;
    var tail := [Event(leaver.id, MessengerUpdate)] + notices + [Event(leaver.id, RoomDetached)];
    assert LeaveEffects(r, guid).outbox == told.outbox + [Event(leaver.id, RoomDetached)];
    Regroup(r.outbox, Event(leaver.id, MessengerUpdate), notices, Event(leaver.id, RoomDetached));
    assert (r.outbox + tail)[..|r.outbox|] == r.outbox;
  }

  /** Between them, `LeaveEffects` sends one "user left" per session in the
      map, the leaver included. */
  lemma LeaveEffectsNotices(r: RoomState, guid: nat)
    requires guid in r.sessions
    ensures var r' := LeaveEffects(r, guid);
            var leaver := r.sessions[guid].habbo;
            var notices := |r.outbox| + 1;
            && |r'.outbox| == notices + |r.sessions| + 1
            && (forall i :: notices <= i < notices + |r.sessions| ==> r'.outbox[i].msg == UserLeft(leaver.roomGuid))
            && (forall k :: k in r.sessions ==>
                  Event(r.sessions[k].habbo.id, UserLeft(leaver.roomGuid)) in r'.outbox[notices..notices + |r.sessions|])
  {
    var leaver := r.sessions[guid].habbo;
    var freed := r.(grid := SetTileOccupied(r.grid, leaver.x, leaver.y, false),
                    outbox := r.outbox + [Event(leaver.id, MessengerUpdate)]);
    var told := SendUserLeftRoom(freed, leaver.roomGuid);
    var r' := LeaveEffects(r, guid);
    var notices := |r.outbox| + 1;
    assert r'.outbox == told.outbox + [Event(leaver.id, RoomDetached)];
    assert told.outbox[notices..] == r'.outbox[notices..notices + |r.sessions|];
    SendUserLeftRoomReachesAll(freed, leaver.roomGuid);
    forall k | k in r.sessions
      ensures Event(r.sessions[k].habbo.id, UserLeft(leaver.roomGuid)) in told.outbox[notices..]
    {
      assert freed.sessions[k].habbo.id == r.sessions[k].habbo.id;
    }
    forall i | notices <= i < notices + |r.sessions|
      ensures r'.outbox[i].msg == UserLeft(leaver.roomGuid)
    {
      assert r'.outbox[i] == told.outbox[i];
    }
  }

  /** `LeaveRoom`. An avatar whose GUID is not in the map changes nothing.
      Otherwise its tile is freed, the messenger is told, every session still
      in the map (the leaver included) gets "user left", the avatar is detached
      from the room, and the erase is queued. The map and the counters do not
      change here. */
  function LeaveRoom(r: RoomState, h: Habbo): (r': RoomState)
    ensures h.roomGuid !in r.sessions ==> r' == r
    ensures r' == r.(grid := r'.grid, pending := r'.pending, outbox := r'.outbox)
    ensures Bound(r.joining, r.pending) ==> Bound(r'.joining, r'.pending)
    ensures h.roomGuid in r.sessions ==>
              var leaver := r.sessions[h.roomGuid].habbo;
              && r'.pending == r.pending + [Leave(h.roomGuid)]
              && r'.grid == SetTileOccupied(r.grid, leaver.x, leaver.y, false)
              && |r'.outbox| == |r.outbox| + |r.sessions| + 2
              && r'.outbox[..|r.outbox|] == r.outbox
              && r'.outbox[|r.outbox|] == Event(leaver.id, MessengerUpdate)
              && r'.outbox[|r'.outbox| - 1] == Event(leaver.id, RoomDetached)
  {
    if h.roomGuid !in r.sessions then r
    else
      LeaveEffectsFrame(r, h.roomGuid);
      var told := LeaveEffects(r, h.roomGuid);
      BoundAppendLeave(r.joining, r.pending, h.roomGuid);
      told.(pending := r.pending + [Leave(h.roomGuid)])
  }

  /** Queuing a leave keeps every queued join bound. */
  lemma BoundAppendLeave(joining: map<nat, Habbo>, cmds: seq<Command>, guid: nat)
    ensures Bound(joining, cmds) ==> Bound(joining, cmds + [Leave(guid)])
  {
    forall c | c in cmds + [Leave(guid)] && c.Join? ensures c in cmds {
    }
  }

  /** Everyone in the room hears of a leave, the leaver included: between the
      messenger update and the detach, `LeaveRoom` logs one "user left" per
      session in the map, each for the leaver's GUID. */
  lemma LeaveRoomNotifiesAll(r: RoomState, h: Habbo)
    requires h.roomGuid in r.sessions
    ensures var r' := LeaveRoom(r, h);
            var leaver := r.sessions[h.roomGuid].habbo;
            var notices := |r.outbox| + 1;
            && |r'.outbox| == notices + |r.sessions| + 1
            && (forall i :: notices <= i < notices + |r.sessions| ==> r'.outbox[i].msg == UserLeft(leaver.roomGuid))
            && (forall k :: k in r.sessions ==>
                  Event(r.sessions[k].habbo.id, UserLeft(leaver.roomGuid)) in r'.outbox[notices..notices + |r.sessions|])
  {
    LeaveEffectsNotices(r, h.roomGuid);
    assert LeaveRoom(r, h).outbox == LeaveEffects(r, h.roomGuid).outbox;
  }

  /** A new `RoomHabboInfo`: no statuses, no path. */
  function NewSession(h: Habbo): (s: Session)
    ensures s.habbo == h && s.statuses == {} && !s.path.activePath
  {
    Session(h, {}, NewWayPoints())
  }

  /** One deferred completion. A join reads the avatar it names as it is now,
      inserts it with `operator[]` under the avatar's current GUID (overwriting
      on a collision), counts one more visitor in the room and in its category,
      and sends RoomReady; a leave erases the GUID and counts one visitor less
      in both. */
  function Apply(r: RoomState, c: Command): (r': RoomState)
    requires c.Join? ==> c.account in r.joining
    ensures r'.pending == r.pending && r'.joining == r.joining && r'.grid == r.grid && r'.ccts == r.ccts
    ensures r'.visitorsMax == r.visitorsMax
    ensures c.Join? ==>
              var h := r.joining[c.account];
              && r'.sessions == r.sessions[h.roomGuid := NewSession(h)]
              && r'.visitorsNow == r.visitorsNow + 1
              && r'.categoryVisitorsNow == r.categoryVisitorsNow + 1
              && r'.outbox == r.outbox + [Event(h.id, RoomReady(r.model, r.id))]
    ensures c.Leave? ==>
              && r'.sessions == r.sessions - {c.guid}
              && r'.visitorsNow == r.visitorsNow - 1
              && r'.categoryVisitorsNow == r.categoryVisitorsNow - 1
              && r'.outbox == r.outbox
  {
    match c
    case Join(a) =>
      var h := r.joining[a];
      r.(sessions := r.sessions[h.roomGuid := NewSession(h)],
         visitorsNow := r.visitorsNow + 1,
         categoryVisitorsNow := r.categoryVisitorsNow + 1,
         outbox := r.outbox + [Event(h.id, RoomReady(r.model, r.id))])
    case Leave(g) =>
      r.(sessions := r.sessions - {g},
         visitorsNow := r.visitorsNow - 1,
         categoryVisitorsNow := r.categoryVisitorsNow - 1)
  }

  /** Runs the commands first to last. */
  function Drain(r: RoomState, cmds: seq<Command>): (r': RoomState)
    requires Bound(r.joining, cmds)
    decreases |cmds|
    ensures r'.pending == r.pending && r'.joining == r.joining
    ensures r'.grid == r.grid && r'.visitorsMax == r.visitorsMax
  {
    if |cmds| == 0 then r else Drain(Apply(r, cmds[0]), cmds[1..])
  }

  /** Applies `step` to every session, as `ProcessUserActions` does. */
  function ProcessUserActions(sessions: map<nat, Session>, diff: nat,
                              step: (Session, nat) -> Session): (m: map<nat, Session>)
    ensures m.Keys == sessions.Keys
    ensures forall k :: k in m ==> m[k] == step(sessions[k], diff)
  {
    map k | k in sessions :: step(sessions[k], diff)
  }

  /** `Update`: drain the queue in FIFO order, then run every session that is
      in the map afterwards through `step` (the path finder's
      `ProcessActions`, which is not part of this model). No join is left
      pending, so the room points at no avatar on its way in. */
  function Update(r: RoomState, diff: nat, step: (Session, nat) -> Session): (r': RoomState)
    requires Bound(r.joining, r.pending)
    ensures r'.pending == [] && r'.joining == map[]
    ensures var drained := Drain(r.(pending := []), r.pending);
              && r'.sessions.Keys == drained.sessions.Keys
              && (forall k :: k in r'.sessions ==> r'.sessions[k] == step(drained.sessions[k], diff))
              && r' == drained.(sessions := r'.sessions, joining := map[])
  {
    var drained := Drain(r.(pending := []), r.pending);
    drained.(sessions := ProcessUserActions(drained.sessions, diff, step), joining := map[])
  }

  // ---------------------------------------------------------------------
  // Per-session commands and queries.

  /** `Walk`: hands the end position to the session's path finder (`step`
      stands for `CreatePath`); an unknown GUID changes nothing. */
  function Walk(r: RoomState, guid: nat, endX: Uint16, endY: Uint16,
                createPath: (Session, int, int) -> Session): (r': RoomState)
    ensures guid !in r.sessions ==> r' == r
    ensures guid in r.sessions ==>
              r' == r.(sessions := r.sessions[guid := createPath(r.sessions[guid], endX, endY)])
  {
    if guid in r.sessions then
      r.(sessions := r.sessions[guid := createPath(r.sessions[guid], endX, endY)])
    else r
  }

  /** `AddStatus`: only the named session gains the status; an unknown GUID
      changes nothing. */
  function AddStatus(r: RoomState, guid: nat, st: Status): (r': RoomState)
    ensures guid !in r.sessions ==> r' == r
    ensures r'.sessions.Keys == r.sessions.Keys
    ensures r' == r.(sessions := r'.sessions)
    ensures forall k :: k in r.sessions && k != guid ==> r'.sessions[k] == r.sessions[k]
    ensures guid in r.sessions ==>
              && r'.sessions[guid].statuses == r.sessions[guid].statuses + {st}
              && r'.sessions[guid] == r.sessions[guid].(statuses := r'.sessions[guid].statuses)
  {
    if guid in r.sessions then
      var s := r.sessions[guid];
      r.(sessions := r.sessions[guid := s.(statuses := s.statuses + {st})])
    else r
  }

  /** `RemoveStatus`: only the named session loses the status; an unknown GUID
      changes nothing. */
  function RemoveStatus(r: RoomState, guid: nat, st: Status): (r': RoomState)
    ensures guid !in r.sessions ==> r' == r
    ensures r'.sessions.Keys == r.sessions.Keys
    ensures r' == r.(sessions := r'.sessions)
    ensures forall k :: k in r.sessions && k != guid ==> r'.sessions[k] == r.sessions[k]
    ensures guid in r.sessions ==>
              && r'.sessions[guid].statuses == r.sessions[guid].statuses - {st}
              && r'.sessions[guid] == r.sessions[guid].(statuses := r'.sessions[guid].statuses)
  {
    if guid in r.sessions then
      var s := r.sessions[guid];
      r.(sessions := r.sessions[guid := s.(statuses := s.statuses - {st})])
    else r
  }

  /** `HasStatus`: false for an unknown GUID. */
  function HasStatus(r: RoomState, guid: nat, st: Status): (b: bool)
    ensures b <==> guid in r.sessions && st in r.sessions[guid].statuses
  {
    guid in r.sessions && st in r.sessions[guid].statuses
  }

  /** The status flags behave as a set per session: after `AddStatus` the
      session reports the status exactly when it is in the map, after
      `RemoveStatus` it never does, and every other (GUID, status) pair
      answers as before. */
  lemma StatusFlagsAgree(r: RoomState, guid: nat, st: Status)
    ensures HasStatus(AddStatus(r, guid, st), guid, st) <==> guid in r.sessions
    ensures !HasStatus(RemoveStatus(r, guid, st), guid, st)
    ensures forall g, s :: g != guid || s != st ==>
              && HasStatus(AddStatus(r, guid, st), g, s) == HasStatus(r, g, s)
              && HasStatus(RemoveStatus(r, guid, st), g, s) == HasStatus(r, g, s)
  {
  }

  /** Removing a status undoes adding it when the session did not carry it,
      and adding a status twice is adding it once. */
  lemma StatusRoundTrip(r: RoomState, guid: nat, st: Status)
    requires !HasStatus(r, guid, st)
    ensures RemoveStatus(AddStatus(r, guid, st), guid, st) == r
    ensures AddStatus(AddStatus(r, guid, st), guid, st) == AddStatus(r, guid, st)
  {
    if guid in r.sessions {
      var s := r.sessions[guid];
      assert s.statuses + {st} - {st} == s.statuses;
      assert r.sessions[guid := s] == r.sessions;
    }
  }

  /** `Walk` touches one session and nothing else: the keys, counters, queue
      and log stay as they are, so the room's accounting is unaffected. */
  lemma WalkKeepsRoom(r: RoomState, guid: nat, endX: Uint16, endY: Uint16,
                      createPath: (Session, int, int) -> Session)
    ensures var r' := Walk(r, guid, endX, endY, createPath);
            && r'.sessions.Keys == r.sessions.Keys
            && |r'.sessions| == |r.sessions|
            && r' == r.(sessions := r'.sessions)
            && forall k :: k in r.sessions && k != guid ==> r'.sessions[k] == r.sessions[k]
  {
    var r' := Walk(r, guid, endX, endY, createPath);
    assert r'.sessions.Keys == r.sessions.Keys;
    assert |r'.sessions| == |r'.sessions.Keys|;
  }

  /** In a strictly increasing sequence, a smaller element sits earlier. */
  lemma IndexBefore(keys: seq<nat>, i: nat, j: nat) returns (n: nat)
    requires StrictlyIncreasing(keys) && i < |keys| && j in keys && j < keys[i]
    ensures n < i && keys[n] == j
  {
    n :| n < |keys| && keys[n] == j;
  }

  /** A session whose key comes first in map order among those with the name
      has the least such key. */
  lemma FirstInOrder(r: RoomState, keys: seq<nat>, i: nat, name: string)
    requires keys == Order(r) && i < |keys|
    requires forall j :: 0 <= j < i ==> r.sessions[keys[j]].habbo.name != name
    ensures forall j :: j in r.sessions && j < keys[i] ==> r.sessions[j].habbo.name != name
  {
    forall j | j in r.sessions && j < keys[i] ensures r.sessions[j].habbo.name != name {
      var n := IndexBefore(keys, i, j);
    }
  }

  /** `FindHabboByName`: the first session in map order whose avatar has the
      name, or none. */
  method FindHabboByName(r: RoomState, name: string) returns (found: Option<Habbo>)
    ensures found.None? <==> forall k :: k in r.sessions ==> r.sessions[k].habbo.name != name
    ensures found.Some? ==> exists k :: k in r.sessions && r.sessions[k].habbo == found.value
                                     && found.value.name == name
                                     && forall j :: j in r.sessions && j < k ==> r.sessions[j].habbo.name != name
  {
    var keys := Order(r);
    var i := 0;
    while i < |keys|
      invariant 0 <= i <= |keys|
      invariant forall j :: 0 <= j < i ==> r.sessions[keys[j]].habbo.name != name
    {
      var h := r.sessions[keys[i]].habbo;
      if h.name == name {
        FirstInOrder(r, keys, i, name);
        return Some(h);
      }
      i := i + 1;
    }
    forall k | k in r.sessions ensures r.sessions[k].habbo.name != name {
      var n :| 0 <= n < |keys| && keys[n] == k;
    }
    return None;
  }

  /** `GetCcts`: with an empty filter, the first tag (or ""); with a filter, the
      filter itself when some tag equals it (the scan goes on past mismatches),
      else "". */
  function GetCcts(ccts: seq<string>, filter: string): (r: string)
    ensures filter == [] ==> r == (if |ccts| > 0 then ccts[0] else [])
    ensures filter != [] && filter in ccts ==> r == filter
    ensures filter != [] && filter !in ccts ==> r == []
  {
    if |ccts| == 0 then []
    else if filter == [] then ccts[0]
    else if ccts[0] == filter then ccts[0]
    else GetCcts(ccts[1..], filter)
  }

  // ---------------------------------------------------------------------
  // Introductions and state sync for a joining avatar.

  /** The single-letter gender code of the room object packet. */
  function GenderCode(gender: string): (code: string)
    ensures code == "M" <==> gender == "Male"
    ensures code != "M" ==> code == "F"
  {
    if gender == "Male" then "M" else "F"
  }

  /** The pool figure shown for `h`: only in a room carrying the pool tag. */
  function PoolFigureOf(r: RoomState, h: Habbo): string {
    if GetCcts(r.ccts, PoolTag) == [] then [] else h.poolFigure
  }

  /** The room object describing `h`, showing `poolFigure`. */
  function FigureOf(h: Habbo, poolFigure: string): Figure {
    Figure(h.roomGuid, h.id, h.name, h.figure, poolFigure, GenderCode(h.gender), h.x, h.y, h.z, h.motto)
  }

  /** Occupant `l` is shown the joiner `p`. */
  function ShowJoiner(r: RoomState, p: Habbo, l: Habbo): Event {
    Event(l.id, RoomObject(FigureOf(p, PoolFigureOf(r, p))))
  }

  /** The joiner `p` is shown occupant `l` wearing `pool`. */
  function ShowOccupant(p: Habbo, l: Habbo, pool: string): Event {
    Event(p.id, RoomObject(FigureOf(l, pool)))
  }

  /** The pool figure put into occupant `l`'s description: its own, or, as
      line 223 has it, the joiner's. */
  function ShownPool(r: RoomState, p: Habbo, l: Habbo, ownPool: bool): string {
    if ownPool then PoolFigureOf(r, l) else PoolFigureOf(r, p)
  }

  /** `e` introduces occupant `l` and the joiner `p` to each other: it shows
      `p` to `l` when their account ids differ, or shows `l`, wearing `pool`,
      to `p`. */
  predicate Introduces(r: RoomState, p: Habbo, l: Habbo, pool: string, e: Event) {
    || (l.id != p.id && e == ShowJoiner(r, p, l))
    || e == ShowOccupant(p, l, pool)
  }

  /** The mutual introductions of `AddFigure` over the listed sessions: each
      other occupant is shown the joiner, and the joiner is shown each occupant
      (itself included). */
  function Introductions(r: RoomState, keys: seq<nat>, p: Habbo, ownPool: bool): (evs: seq<Event>)
    requires forall k :: k in keys ==> k in r.sessions
  {
    if |keys| == 0 then []
    else
      var l := r.sessions[keys[0]].habbo;
      var toOther := if l.id != p.id then [ShowJoiner(r, p, l)] else [];
      toOther + [ShowOccupant(p, l, ShownPool(r, p, l, ownPool))] + Introductions(r, keys[1..], p, ownPool)
  }

  /** The introductions are exactly: the joiner to each occupant with another
      account id, and each occupant to the joiner. */
  lemma {:induction false} IntroductionsContent(r: RoomState, keys: seq<nat>, p: Habbo, ownPool: bool)
    requires forall k :: k in keys ==> k in r.sessions
    ensures forall e :: e in Introductions(r, keys, p, ownPool) <==>
              exists k :: k in keys &&
                Introduces(r, p, r.sessions[k].habbo, ShownPool(r, p, r.sessions[k].habbo, ownPool), e)
  {
    if |keys| > 0 {
      IntroductionsContent(r, keys[1..], p, ownPool);
      forall k | k in keys ensures k == keys[0] || k in keys[1..] {
        var i :| 0 <= i < |keys| && keys[i] == k;
        if i > 0 { assert keys[1..][i - 1] == k; }
      }
    }
  }

  /** `evs` shows each occupant of the map to the joiner `p`, wearing the pool
      figure `ShownPool` picks, and shows `p` to each occupant with another
      account id. */
  predicate MeetsEveryone(r: RoomState, p: Habbo, ownPool: bool, evs: seq<Event>) {
    forall k :: k in r.sessions ==>
      var l := r.sessions[k].habbo;
      && ShowOccupant(p, l, ShownPool(r, p, l, ownPool)) in evs
      && (l.id != p.id ==> ShowJoiner(r, p, l) in evs)
  }

  /** `evs` holds nothing but such introductions. */
  predicate OnlyIntroduces(r: RoomState, p: Habbo, ownPool: bool, evs: seq<Event>) {
    forall e :: e in evs ==>
      exists k :: k in r.sessions &&
        Introduces(r, p, r.sessions[k].habbo, ShownPool(r, p, r.sessions[k].habbo, ownPool), e)
  }

  /** The introductions over the whole map reach everyone: each occupant is
      shown to the joiner, and each other occupant is shown the joiner. */
  lemma IntroductionsCover(r: RoomState, p: Habbo, ownPool: bool)
    ensures MeetsEveryone(r, p, ownPool, Introductions(r, Order(r), p, ownPool))
  {
    var keys := Order(r);
    IntroductionsContent(r, keys, p, ownPool);
    forall k | k in r.sessions
      ensures var l := r.sessions[k].habbo;
              && ShowOccupant(p, l, ShownPool(r, p, l, ownPool)) in Introductions(r, keys, p, ownPool)
              && (l.id != p.id ==> ShowJoiner(r, p, l) in Introductions(r, keys, p, ownPool))
    {
      assert k in keys;
    }
  }

  /** The introductions over the whole map hold nothing else. */
  lemma IntroductionsOnly(r: RoomState, p: Habbo, ownPool: bool)
    ensures OnlyIntroduces(r, p, ownPool, Introductions(r, Order(r), p, ownPool))
  {
    var keys := Order(r);
    var evs := Introductions(r, keys, p, ownPool);
    IntroductionsContent(r, keys, p, ownPool);
    forall e | e in evs
      ensures exists k :: k in r.sessions &&
                Introduces(r, p, r.sessions[k].habbo, ShownPool(r, p, r.sessions[k].habbo, ownPool), e)
    {
      var k :| k in keys && Introduces(r, p, r.sessions[k].habbo, ShownPool(r, p, r.sessions[k].habbo, ownPool), e);
      assert k in r.sessions;
    }
  }

  /** `AddFigure` as the source writes it: the joiner is shown every occupant,
      but with the joiner's own pool figure put into each description; every
      other occupant is shown the joiner; nothing else is sent. */
  function AddFigureAsWritten(r: RoomState, p: Habbo): (r': RoomState)
    ensures r' == r.(outbox := r'.outbox)
    ensures |r'.outbox| >= |r.outbox| && r'.outbox[..|r.outbox|] == r.outbox
    ensures MeetsEveryone(r, p, false, r'.outbox[|r.outbox|..])
    ensures OnlyIntroduces(r, p, false, r'.outbox[|r.outbox|..])
    ensures forall k :: k in r.sessions ==>
              ShowOccupant(p, r.sessions[k].habbo, PoolFigureOf(r, p)) in r'.outbox
  {
    var evs := Introductions(r, Order(r), p, false);
    IntroductionsCover(r, p, false);
    IntroductionsOnly(r, p, false);
    var r' := r.(outbox := r.outbox + evs);
    assert r'.outbox[|r.outbox|..] == evs;
    r'
  }

  /** In a pool room, the joiner is shown an occupant with a different pool
      figure wearing the joiner's pool figure instead of its own. */
  lemma AddFigureShowsJoinersPoolFigure(r: RoomState, p: Habbo, k: nat)
    requires PoolTag in r.ccts && k in r.sessions
    requires r.sessions[k].habbo.poolFigure != p.poolFigure
    ensures var l := r.sessions[k].habbo;
            && ShowOccupant(p, l, p.poolFigure) in AddFigureAsWritten(r, p).outbox
            && FigureOf(l, p.poolFigure) != FigureOf(l, PoolFigureOf(r, l))
  {
    var l := r.sessions[k].habbo;
    assert GetCcts(r.ccts, PoolTag) == PoolTag;
    assert PoolFigureOf(r, p) == p.poolFigure && PoolFigureOf(r, l) == l.poolFigure;
    var r' := AddFigureAsWritten(r, p);
    assert ShowOccupant(p, l, PoolFigureOf(r, p)) in r'.outbox;
  }

  /** `AddFigure` with each occupant described by its own pool figure: the
      joiner sees every occupant as that occupant is, and every other occupant
      sees the joiner; nothing else is sent. */
  function AddFigure(r: RoomState, p: Habbo): (r': RoomState)
    ensures r' == r.(outbox := r'.outbox)
    ensures |r'.outbox| >= |r.outbox| && r'.outbox[..|r.outbox|] == r.outbox
    ensures MeetsEveryone(r, p, true, r'.outbox[|r.outbox|..])
    ensures OnlyIntroduces(r, p, true, r'.outbox[|r.outbox|..])
  {
    var evs := Introductions(r, Order(r), p, true);
    IntroductionsCover(r, p, true);
    IntroductionsOnly(r, p, true);
    var r' := r.(outbox := r.outbox + evs);
    assert r'.outbox[|r.outbox|..] == evs;
    r'
  }

  /** The `UserUpdateStatus` content for one session. */
  function StatusOf(s: Session): (m: Message)
    ensures m.UserStatus? && m.guid == s.habbo.roomGuid
    ensures m.sitting == (Sitting in s.statuses) && m.walking == (Walking in s.statuses)
    ensures m.dancing == (Dancing in s.statuses) && m.waving == (Waving in s.statuses)
    ensures m.swimming == (Swimming in s.statuses)
  {
    UserStatus(s.habbo.roomGuid, s.habbo.x, s.habbo.y, s.habbo.z, s.habbo.rotation,
               Sitting in s.statuses, Walking in s.statuses, Dancing in s.statuses,
               Waving in s.statuses, Swimming in s.statuses)
  }

  function StatusEvents(sessions: map<nat, Session>, keys: seq<nat>, to: nat): (evs: seq<Event>)
    requires forall k :: k in keys ==> k in sessions
    ensures |evs| == |keys|
    ensures forall i :: 0 <= i < |keys| ==> evs[i] == Event(to, StatusOf(sessions[keys[i]]))
    ensures forall e :: e in evs ==> e.to == to && e.msg.UserStatus?
  {
    if |keys| == 0 then [] else [Event(to, StatusOf(sessions[keys[0]]))] + StatusEvents(sessions, keys[1..], to)
  }

  lemma StatusEventsCover(sessions: map<nat, Session>, keys: seq<nat>, to: nat)
    requires forall k :: k in keys <==> k in sessions
    ensures forall k :: k in sessions ==> Event(to, StatusOf(sessions[k])) in StatusEvents(sessions, keys, to)
  {
    var evs := StatusEvents(sessions, keys, to);
    forall k | k in sessions ensures Event(to, StatusOf(sessions[k])) in evs {
      var i :| 0 <= i < |keys| && keys[i] == k;
      assert evs[i] == Event(to, StatusOf(sessions[k]));
    }
  }

  /** `SendRoomStatuses`: the joiner receives one status packet per session in
      the map, in map order, and nothing else is sent. */
  function SendRoomStatuses(r: RoomState, p: Habbo): (r': RoomState)
    ensures r' == r.(outbox := r'.outbox)
    ensures |r'.outbox| == |r.outbox| + |r.sessions| && r'.outbox[..|r.outbox|] == r.outbox
    ensures forall e :: e in r'.outbox[|r.outbox|..] ==> e.to == p.id && e.msg.UserStatus?
    ensures forall k :: k in r.sessions ==> Event(p.id, StatusOf(r.sessions[k])) in r'.outbox[|r.outbox|..]
  {
    var evs := StatusEvents(r.sessions, Order(r), p.id);
    StatusEventsCover(r.sessions, Order(r), p.id);
    var out := r.outbox + evs;
    assert out[|r.outbox|..] == evs;
    r.(outbox := out)
  }

  /** `SendWorldObjects`: in a public room, one packet listing the model's
      items (`catalogue` stands for the item manager's list); nothing in other
      rooms. */
  function SendWorldObjects(r: RoomState, p: Habbo, catalogue: seq<Item>): (r': RoomState)
    ensures r' == r.(outbox := r'.outbox)
    ensures r.isPublic ==> r'.outbox == r.outbox + [Event(p.id, WorldObjects(catalogue))]
    ensures !r.isPublic ==> r' == r
  {
    if r.isPublic then r.(outbox := r.outbox + [Event(p.id, WorldObjects(catalogue))]) else r
  }

  /** `SendActiveObjects`: one (empty) active-objects packet to the avatar. */
  function SendActiveObjects(r: RoomState, p: Habbo): (r': RoomState)
    ensures r' == r.(outbox := r.outbox + [Event(p.id, ActiveObjects)])
  {
    r.(outbox := r.outbox + [Event(p.id, ActiveObjects)])
  }
}

=== FILE: room_invariants.dfy ===
/** Occupancy accounting of a room across `EnterRoom`, `LeaveRoom` and
    `Update`: when it holds, when it breaks, and the inputs that break it. */
module RoomInvariants {
  import opened Wrappers
  import opened TileGrid
  import opened Avatar
  import opened Room

  /** The GUIDs the map will hold once the commands have run: a join adds the
      current GUID of the avatar it names. */
  function KeysAfter(keys: set<nat>, joining: map<nat, Habbo>, cmds: seq<Command>): set<nat>
    requires Bound(joining, cmds)
    decreases |cmds|
  {
    if |cmds| == 0 then keys
    else match cmds[0]
      case Join(a) => KeysAfter(keys + {joining[a].roomGuid}, joining, cmds[1..])
      case Leave(g) => KeysAfter(keys - {g}, joining, cmds[1..])
  }

  /** Every queued join brings a GUID not in the map at its turn, and every
      queued leave names one that is: then each command moves the map size
      and the counter together. */
  predicate PendingOk(keys: set<nat>, joining: map<nat, Habbo>, cmds: seq<Command>)
    decreases |cmds|
  {
    |cmds| == 0 ||
    match cmds[0]
    case Join(a) =>
      a in joining && joining[a].roomGuid !in keys
      && PendingOk(keys + {joining[a].roomGuid}, joining, cmds[1..])
    case Leave(g) => g in keys && PendingOk(keys - {g}, joining, cmds[1..])
  }

  function JoinCount(cmds: seq<Command>): nat
    decreases |cmds|
  {
    if |cmds| == 0 then 0 else (if cmds[0].Join? then 1 else 0) + JoinCount(cmds[1..])
  }

  /** The room's accounting invariant: the counter is the map size, the queue is
      well formed, and there is a free slot for every queued join. It implies
      `visitorsNow <= visitorsMax`. */
  predicate Inv(r: RoomState) {
    && Bound(r.joining, r.pending)
    && r.visitorsNow == |r.sessions|
    && PendingOk(r.sessions.Keys, r.joining, r.pending)
    && |r.sessions| + JoinCount(r.pending) <= r.visitorsMax
  }

  lemma InvBoundsOccupancy(r: RoomState)
    requires Inv(r)
    ensures 0 <= r.visitorsNow <= r.visitorsMax
  {
  }

  /** Draining leaves exactly the keys `KeysAfter` predicts, and moves the room
      counter and the category counter by the same amount. */
  lemma {:induction false} DrainKeys(r: RoomState, cmds: seq<Command>)
    requires Bound(r.joining, cmds)
    ensures Drain(r, cmds).sessions.Keys == KeysAfter(r.sessions.Keys, r.joining, cmds)
    ensures Drain(r, cmds).categoryVisitorsNow - r.categoryVisitorsNow
            == Drain(r, cmds).visitorsNow - r.visitorsNow
    decreases |cmds|
  {
    if |cmds| > 0 {
      var r1 := Apply(r, cmds[0]);
      match cmds[0] {
        case Join(a) => assert r1.sessions.Keys == r.sessions.Keys + {r.joining[a].roomGuid};
        case Leave(g) => assert r1.sessions.Keys == r.sessions.Keys - {g};
      }
      DrainKeys(r1, cmds[1..]);
    }
  }

  /** Under a well-formed queue, draining keeps the counter equal to the map
      size and ends with no more sessions than the current ones plus the joins. */
  lemma {:induction false} DrainKeepsCount(r: RoomState, cmds: seq<Command>)
    requires r.visitorsNow == |r.sessions|
    requires Bound(r.joining, cmds) && PendingOk(r.sessions.Keys, r.joining, cmds)
    ensures Drain(r, cmds).visitorsNow == |Drain(r, cmds).sessions|
    ensures |Drain(r, cmds).sessions| <= |r.sessions| + JoinCount(cmds)
    decreases |cmds|
  {
    if |cmds| > 0 {
      var r1 := Apply(r, cmds[0]);
      match cmds[0]
      case Join(a) =>
        assert r1.sessions.Keys == r.sessions.Keys + {r.joining[a].roomGuid};
        assert |r1.sessions| == |r.sessions| + 1;
        DrainKeepsCount(r1, cmds[1..]);
      case Leave(g) =>
        assert r1.sessions.Keys == r.sessions.Keys - {g};
        assert |r1.sessions| == |r.sessions| - 1;
        DrainKeepsCount(r1, cmds[1..]);
    }
  }

  /** Appending a command keeps the queue well formed exactly when the join's
      avatar has a GUID that is free, or the leave's GUID is held, once the
      queue before it has run. */
  lemma {:induction false} PendingOkAppend(keys: set<nat>, joining: map<nat, Habbo>, cmds: seq<Command>, c: Command)
    requires Bound(joining, cmds) && (c.Join? ==> c.account in joining)
    ensures Bound(joining, cmds + [c])
    ensures PendingOk(keys, joining, cmds + [c]) <==>
              && PendingOk(keys, joining, cmds)
              && (c.Join? ==> joining[c.account].roomGuid !in KeysAfter(keys, joining, cmds))
              && (c.Leave? ==> c.guid in KeysAfter(keys, joining, cmds))
    ensures KeysAfter(keys, joining, cmds + [c]) ==
              if c.Join? then KeysAfter(keys, joining, cmds) + {joining[c.account].roomGuid}
              else KeysAfter(keys, joining, cmds) - {c.guid}
    ensures JoinCount(cmds + [c]) == JoinCount(cmds) + if c.Join? then 1 else 0
    decreases |cmds|
  {
    if |cmds| == 0 {
      assert [c][1..] == [];
    } else {
      assert (cmds + [c])[1..] == cmds[1..] + [c];
      match cmds[0]
      case Join(a) => PendingOkAppend(keys + {joining[a].roomGuid}, joining, cmds[1..], c);
      case Leave(g) => PendingOkAppend(keys - {g}, joining, cmds[1..], c);
    }
  }

  /** Binding an avatar that no queued join names changes neither what the
      queue does to the keys nor whether it is well formed. */
  lemma {:induction false} RebindUnqueued(keys: set<nat>, joining: map<nat, Habbo>, cmds: seq<Command>,
                                          a: nat, h: Habbo)
    requires Bound(joining, cmds) && Join(a) !in cmds
    ensures Bound(joining[a := h], cmds)
    ensures KeysAfter(keys, joining[a := h], cmds) == KeysAfter(keys, joining, cmds)
    ensures PendingOk(keys, joining[a := h], cmds) == PendingOk(keys, joining, cmds)
    decreases |cmds|
  {
    if |cmds| > 0 {
      assert cmds[0] in cmds;
      match cmds[0]
      case Join(b) =>
        assert joining[a := h][b] == joining[b];
        RebindUnqueued(keys + {joining[b].roomGuid}, joining, cmds[1..], a, h);
      case Leave(g) =>
        RebindUnqueued(keys - {g}, joining, cmds[1..], a, h);
    }
  }

  /** `Update` re-establishes the invariant and empties the queue. */
  lemma UpdateKeepsInv(r: RoomState, diff: nat, step: (Session, nat) -> Session)
    requires Inv(r)
    ensures Inv(Update(r, diff, step))
    ensures Update(r, diff, step).pending == []
    ensures Update(r, diff, step).visitorsNow == |Update(r, diff, step).sessions| <= r.visitorsMax
    ensures Update(r, diff, step).categoryVisitorsNow - r.categoryVisitorsNow
            == Update(r, diff, step).visitorsNow - r.visitorsNow
  {
    var start := r.(pending := []);
    DrainKeepsCount(start, r.pending);
    DrainKeys(start, r.pending);
  }

  /** `EnterRoom` keeps the invariant when the avatar has no join queued yet,
      the drawn GUID will be free when its join runs, and a slot is left for
      it beyond the joins already queued. */
  lemma EnterRoomKeepsInv(r: RoomState, h: Habbo, walkway: Option<WalkWay>, guid: GeneratedGuid)
    requires Inv(r)
    requires Join(h.id) !in r.pending
    requires guid !in KeysAfter(r.sessions.Keys, r.joining, r.pending)
    requires |r.sessions| + JoinCount(r.pending) < r.visitorsMax
    ensures Inv(EnterRoom(r, h, walkway, guid).room)
  {
    var e := EnterRoom(r, h, walkway, guid);
    if e.room.pending != r.pending {
      RebindUnqueued(r.sessions.Keys, r.joining, r.pending, h.id, e.habbo);
      PendingOkAppend(r.sessions.Keys, e.room.joining, r.pending, Join(h.id));
    }
  }

  /** A GUID held now and named by no queued leave is still held once the
      queue has run: joins only add GUIDs. */
  lemma {:induction false} HeldUnlessLeft(keys: set<nat>, joining: map<nat, Habbo>, cmds: seq<Command>, g: nat)
    requires Bound(joining, cmds) && g in keys && Leave(g) !in cmds
    ensures g in KeysAfter(keys, joining, cmds)
    decreases |cmds|
  {
    if |cmds| > 0 {
      assert cmds[0] in cmds;
      assert forall c :: c in cmds[1..] ==> c in cmds;
      match cmds[0]
      case Join(a) => HeldUnlessLeft(keys + {joining[a].roomGuid}, joining, cmds[1..], g);
      case Leave(l) => HeldUnlessLeft(keys - {l}, joining, cmds[1..], g);
    }
  }

  /** `LeaveRoom` keeps the invariant when no erase of the same GUID is already
      queued. The source's queued erase holds an iterator to the map entry as
      it is now, so a second leave of that GUID before the tick erases the same
      entry twice, which is undefined, even when a join in between has put the
      GUID back. */
  lemma LeaveRoomKeepsInv(r: RoomState, h: Habbo)
    requires Inv(r)
    requires h.roomGuid in r.sessions ==> Leave(h.roomGuid) !in r.pending
    ensures Inv(LeaveRoom(r, h))
  {
    if h.roomGuid in r.sessions {
      HeldUnlessLeft(r.sessions.Keys, r.joining, r.pending, h.roomGuid);
      PendingOkAppend(r.sessions.Keys, r.joining, r.pending, Leave(h.roomGuid));
    }
  }

  /** A change to the sessions' contents that keeps their GUIDs, as `Walk`,
      `AddStatus` and `RemoveStatus` make, keeps the invariant. */
  lemma SessionEditKeepsInv(r: RoomState, r': RoomState)
    requires Inv(r)
    requires r' == r.(sessions := r'.sessions) && r'.sessions.Keys == r.sessions.Keys
    ensures Inv(r')
  {
    assert |r'.sessions| == |r'.sessions.Keys| == |r.sessions.Keys| == |r.sessions|;
  }

  // ---------------------------------------------------------------------
  // Traces.

  /** One call into the room: `EnterRoom` with the GUID drawn for it,
      `LeaveRoom`, a walk request with the path finder's answer, a status
      change, or a tick. */
  datatype Op =
    | Enter(habbo: Habbo, walkway: Option<WalkWay>, guid: GeneratedGuid)
    | Exit(habbo: Habbo)
    | Move(target: nat, endX: Uint16, endY: Uint16, createPath: (Session, int, int) -> Session)
    | Flag(target: nat, status: Status)
    | Unflag(target: nat, status: Status)
    | Tick(diff: nat)

  function Step(r: RoomState, op: Op, step: (Session, nat) -> Session): (r': RoomState)
    requires Bound(r.joining, r.pending)
    ensures Bound(r'.joining, r'.pending)
  {
    match op
    case Enter(h, w, g) => EnterRoom(r, h, w, g).room
    case Exit(h) => LeaveRoom(r, h)
    case Move(g, x, y, createPath) => Walk(r, g, x, y, createPath)
    case Flag(g, st) => AddStatus(r, g, st)
    case Unflag(g, st) => RemoveStatus(r, g, st)
    case Tick(d) => Update(r, d, step)
  }

  function Run(r: RoomState, ops: seq<Op>, step: (Session, nat) -> Session): RoomState
    requires Bound(r.joining, r.pending)
    decreases |ops|
  {
    if |ops| == 0 then r else Run(Step(r, ops[0], step), ops[1..], step)
  }

  /** The three conditions the source does not enforce: for every admission, an
      avatar with no join queued yet, a fresh GUID and a free slot per queued
      join; and a single leave per GUID between ticks. */
  predicate Disciplined(r: RoomState, op: Op)
    requires Bound(r.joining, r.pending)
  {
    match op
    case Enter(h, w, g) =>
      h.roomGuid !in r.sessions && r.visitorsNow < r.visitorsMax ==>
        && Join(h.id) !in r.pending
        && g !in KeysAfter(r.sessions.Keys, r.joining, r.pending)
        && |r.sessions| + JoinCount(r.pending) < r.visitorsMax
    case Exit(h) => h.roomGuid in r.sessions ==> Leave(h.roomGuid) !in r.pending
    case Move(_, _, _, _) => true
    case Flag(_, _) => true
    case Unflag(_, _) => true
    case Tick(_) => true
  }

  predicate DisciplinedRun(r: RoomState, ops: seq<Op>, step: (Session, nat) -> Session)
    requires Bound(r.joining, r.pending)
    decreases |ops|
  {
    |ops| == 0 || (Disciplined(r, ops[0]) && DisciplinedRun(Step(r, ops[0], step), ops[1..], step))
  }

  lemma StepKeepsInv(r: RoomState, op: Op, step: (Session, nat) -> Session)
    requires Inv(r) && Disciplined(r, op)
    ensures Inv(Step(r, op, step))
  {
    match op
    case Enter(h, w, g) =>
      if h.roomGuid !in r.sessions && r.visitorsNow < r.visitorsMax {
        EnterRoomKeepsInv(r, h, w, g);
      }
    case Exit(h) => LeaveRoomKeepsInv(r, h);
    case Move(g, x, y, createPath) =>
      WalkKeepsRoom(r, g, x, y, createPath);
      SessionEditKeepsInv(r, Walk(r, g, x, y, createPath));
    case Flag(g, st) => SessionEditKeepsInv(r, AddStatus(r, g, st));
    case Unflag(g, st) => SessionEditKeepsInv(r, RemoveStatus(r, g, st));
    case Tick(d) => UpdateKeepsInv(r, d, step);
  }

  /** Along any disciplined sequence of calls, starting from a consistent room,
      the room stays consistent: in particular after every `Update` the counter
      equals the map size and never exceeds the capacity. */
  lemma {:induction false} RunKeepsInv(r: RoomState, ops: seq<Op>, step: (Session, nat) -> Session)
    requires Inv(r) && DisciplinedRun(r, ops, step)
    ensures Inv(Run(r, ops, step))
    ensures Run(r, ops, step).visitorsNow <= Run(r, ops, step).visitorsMax
    decreases |ops|
  {
    if |ops| > 0 {
      StepKeepsInv(r, ops[0], step);
      RunKeepsInv(Step(r, ops[0], step), ops[1..], step);
    }
  }

  // ---------------------------------------------------------------------
  // The two-phase lifecycle.

  /** An admitted join is invisible until the next `Update`, which inserts the
      session under the drawn GUID, counts it in the room and its category,
      and sends RoomReady to the avatar. */
  lemma JoinCompletesOnNextUpdate(r: RoomState, h: Habbo, walkway: Option<WalkWay>, guid: GeneratedGuid,
                                  diff: nat, step: (Session, nat) -> Session)
    requires r.pending == []
    requires h.roomGuid !in r.sessions && r.visitorsNow < r.visitorsMax
    ensures var e := EnterRoom(r, h, walkway, guid);
            var u := Update(e.room, diff, step);
            && e.admitted
            && e.room.sessions == r.sessions && e.room.visitorsNow == r.visitorsNow
            && u.sessions.Keys == r.sessions.Keys + {guid}
            && u.sessions[guid] == step(NewSession(e.habbo), diff)
            && u.visitorsNow == r.visitorsNow + 1
            && u.categoryVisitorsNow == r.categoryVisitorsNow + 1
            && u.outbox == e.room.outbox + [Event(h.id, RoomReady(r.model, r.id))]
  {
    var e := EnterRoom(r, h, walkway, guid);
    var start := e.room.(pending := []);
    assert Drain(start, e.room.pending) == Drain(Apply(start, Join(h.id)), []);
  }

  /** A leave keeps the session in the map until the next `Update`, which
      erases it and counts one visitor less in the room and its category. */
  lemma LeaveCompletesOnNextUpdate(r: RoomState, h: Habbo, diff: nat, step: (Session, nat) -> Session)
    requires r.pending == []
    requires h.roomGuid in r.sessions
    ensures var l := LeaveRoom(r, h);
            var u := Update(l, diff, step);
            && l.sessions == r.sessions
            && u.sessions.Keys == r.sessions.Keys - {h.roomGuid}
            && u.visitorsNow == r.visitorsNow - 1
            && u.categoryVisitorsNow == r.categoryVisitorsNow - 1
  {
    var l := LeaveRoom(r, h);
    assert l.pending == [Leave(h.roomGuid)] && l.sessions == r.sessions;
    var start := l.(pending := []);
    DrainOne(start, Leave(h.roomGuid));
    var d := Drain(start, l.pending);
    assert d.sessions == r.sessions - {h.roomGuid};
    assert d.visitorsNow == r.visitorsNow - 1 && d.categoryVisitorsNow == r.categoryVisitorsNow - 1;
    var u := Update(l, diff, step);
    assert u.sessions.Keys == d.sessions.Keys;
  }

  // ---------------------------------------------------------------------
  // What happens without the discipline.

  lemma DrainOne(r: RoomState, c: Command)
    requires Bound(r.joining, [c])
    ensures Drain(r, [c]) == Apply(r, c)
  {
    assert Drain(r, [c]) == Drain(Apply(r, c), []);
  }

  lemma DrainTwo(r: RoomState, c1: Command, c2: Command)
    requires Bound(r.joining, [c1, c2])
    ensures Drain(r, [c1, c2]) == Apply(Apply(r, c1), c2)
  {
    assert [c1, c2][1..] == [c2];
    assert Drain(r, [c1, c2]) == Drain(Apply(r, c1), [c2]);
    assert Drain(Apply(r, c1), [c2]) == Drain(Apply(Apply(r, c1), c2), []);
  }

  /** Two admissions into a room with an empty queue, before any tick: both
      joins are queued, each naming its avatar as `EnterRoom` left it. */
  lemma AdmitTwo(r: RoomState, a: Habbo, b: Habbo, ga: GeneratedGuid, gb: GeneratedGuid)
    requires r.pending == [] && r.visitorsNow < r.visitorsMax
    requires a.roomGuid !in r.sessions && b.roomGuid !in r.sessions
    ensures var ea := EnterRoom(r, a, None, ga);
            var eb := EnterRoom(ea.room, b, None, gb);
            && ea.admitted && eb.admitted
            && ea.habbo.roomGuid == ga && eb.habbo.roomGuid == gb
            && eb.room.pending == [Join(a.id), Join(b.id)]
            && eb.room.joining == r.joining[a.id := ea.habbo][b.id := eb.habbo]
            && eb.room.sessions == r.sessions && eb.room.visitorsNow == r.visitorsNow
            && eb.room.categoryVisitorsNow == r.categoryVisitorsNow
  {
    var ea := EnterRoom(r, a, None, ga);
    assert ea.room.pending == [Join(a.id)];
  }

  /** An `Update` with two joins queued inserts both avatars, as they are when
      the queue is drained, in order, and counts two visitors. */
  lemma UpdateTwoJoins(q: RoomState, a: nat, b: nat, diff: nat, step: (Session, nat) -> Session)
    requires q.pending == [Join(a), Join(b)] && a in q.joining && b in q.joining
    ensures var u := Update(q, diff, step);
            var ga, gb := q.joining[a].roomGuid, q.joining[b].roomGuid;
            && u.sessions.Keys == q.sessions.Keys + {ga} + {gb}
            && u.sessions[gb] == step(NewSession(q.joining[b]), diff)
            && (ga != gb ==> u.sessions[ga] == step(NewSession(q.joining[a]), diff))
            && u.visitorsNow == q.visitorsNow + 2
  {
    var start := q.(pending := []);
    DrainTwo(start, Join(a), Join(b));
    var ha, hb := q.joining[a], q.joining[b];
    var d := Drain(start, q.pending);
    assert d.sessions == q.sessions[ha.roomGuid := NewSession(ha)][hb.roomGuid := NewSession(hb)];
    assert d.visitorsNow == q.visitorsNow + 2;
  }

  /** Two avatars admitted between ticks into a room with one free slot: both
      are admitted, because the capacity test does not count queued joins, and
      the next `Update` leaves the room over capacity. */
  lemma CapacityOverrun(r: RoomState, a: Habbo, b: Habbo, ga: GeneratedGuid, gb: GeneratedGuid,
                        diff: nat, step: (Session, nat) -> Session)
    requires r.pending == [] && r.visitorsNow == |r.sessions| && r.visitorsNow + 1 == r.visitorsMax
    requires a.id != b.id && a.roomGuid !in r.sessions && b.roomGuid !in r.sessions
    requires ga != gb && ga !in r.sessions && gb !in r.sessions
    ensures var ea := EnterRoom(r, a, None, ga);
            var eb := EnterRoom(ea.room, b, None, gb);
            var u := Update(eb.room, diff, step);
            && ea.admitted && eb.admitted
            && u.visitorsNow == |u.sessions| == r.visitorsMax + 1
  {
    AdmitTwo(r, a, b, ga, gb);
    var ea := EnterRoom(r, a, None, ga);
    var eb := EnterRoom(ea.room, b, None, gb);
    UpdateTwoJoins(eb.room, a.id, b.id, diff, step);
    var u := Update(eb.room, diff, step);
    assert u.sessions.Keys == r.sessions.Keys + {ga} + {gb};
    assert |u.sessions| == |u.sessions.Keys| == |r.sessions.Keys| + 2;
  }

  /** Two admissions that draw the same GUID: the second insertion overwrites
      the first, yet both count, so the counter no longer equals the map size. */
  lemma GuidCollisionMiscounts(r: RoomState, a: Habbo, b: Habbo, g: GeneratedGuid,
                               diff: nat, step: (Session, nat) -> Session)
    requires r.pending == [] && r.visitorsNow == |r.sessions| && r.visitorsNow + 2 <= r.visitorsMax
    requires a.roomGuid !in r.sessions && b.roomGuid !in r.sessions && g !in r.sessions
    ensures var ea := EnterRoom(r, a, None, g);
            var eb := EnterRoom(ea.room, b, None, g);
            var u := Update(eb.room, diff, step);
            && ea.admitted && eb.admitted
            && |u.sessions| == |r.sessions| + 1
            && u.visitorsNow == |r.sessions| + 2
            && g in u.sessions && u.sessions[g] == step(NewSession(eb.habbo), diff)
  {
    AdmitTwo(r, a, b, g, g);
    var ea := EnterRoom(r, a, None, g);
    var eb := EnterRoom(ea.room, b, None, g);
    UpdateTwoJoins(eb.room, a.id, b.id, diff, step);
    var u := Update(eb.room, diff, step);
    assert u.sessions.Keys == r.sessions.Keys + {g};
    assert |u.sessions| == |u.sessions.Keys| == |r.sessions.Keys| + 1;
  }

  /** A leave, then a join that draws the leaver's GUID, both before a tick:
      the GUID is held again once the queue has run, yet the erase queued
      first refers to the old entry. A second leave of the same avatar is
      therefore ruled out by the discipline, although the GUID it names would
      be held at its turn. */
  lemma RejoinedGuidLeftTwice(r: RoomState, c: Habbo, a: Habbo, g: GeneratedGuid)
    requires r.pending == [] && r.visitorsNow < r.visitorsMax
    requires c.roomGuid == g && g in r.sessions && a.roomGuid !in r.sessions
    ensures var l := LeaveRoom(r, c);
            var e := EnterRoom(l, a, None, g);
            && e.admitted && e.habbo.roomGuid == g
            && e.room.pending == [Leave(g), Join(a.id)]
            && g in KeysAfter(e.room.sessions.Keys, e.room.joining, e.room.pending)
            && !Disciplined(e.room, Exit(c))
  {
    var l := LeaveRoom(r, c);
    assert l.pending == [Leave(g)] && l.sessions == r.sessions;
    assert l.visitorsNow == r.visitorsNow && l.visitorsMax == r.visitorsMax;
    AdmitAfterLeave(l, c, a, g);
  }

  /** The second half of `RejoinedGuidLeftTwice`, from the queued leave on. */
  lemma AdmitAfterLeave(l: RoomState, c: Habbo, a: Habbo, g: GeneratedGuid)
    requires l.pending == [Leave(g)] && l.visitorsNow < l.visitorsMax
    requires c.roomGuid == g && g in l.sessions && a.roomGuid !in l.sessions
    ensures var e := EnterRoom(l, a, None, g);
            && e.admitted && e.habbo.roomGuid == g
            && e.room.pending == [Leave(g), Join(a.id)]
            && g in KeysAfter(e.room.sessions.Keys, e.room.joining, e.room.pending)
            && !Disciplined(e.room, Exit(c))
  {
    var e := EnterRoom(l, a, None, g);
    assert e.room.pending == [Leave(g), Join(a.id)] && e.room.joining[a.id].roomGuid == g;
    LeaveThenRejoin(e.room.sessions.Keys, e.room.joining, g, a.id);
  }

  /** A leave of a GUID followed by a join of an avatar carrying it leaves the
      GUID held. */
  lemma LeaveThenRejoin(keys: set<nat>, joining: map<nat, Habbo>, g: nat, a: nat)
    requires a in joining && joining[a].roomGuid == g
    ensures g in KeysAfter(keys, joining, [Leave(g), Join(a)])
  {
    assert [Leave(g), Join(a)][1..] == [Join(a)] && [Join(a)][1..] == [];
    assert KeysAfter(keys, joining, [Leave(g), Join(a)]) == KeysAfter(keys - {g}, joining, [Join(a)]);
  }

  /** The same avatar entering twice before a tick is admitted twice: the GUID
      it drew first is not in the map yet. Both queued joins point at the one
      avatar, which by then carries the second GUID, so after `Update` it holds
      one session, under the second GUID, counted twice. The discipline rules
      the second entry out. */
  lemma DoubleEnterBeforeTick(r: RoomState, h: Habbo, g1: GeneratedGuid, g2: GeneratedGuid,
                              diff: nat, step: (Session, nat) -> Session)
    requires r.pending == [] && r.visitorsNow == |r.sessions| && r.visitorsNow < r.visitorsMax
    requires h.roomGuid !in r.sessions && g1 !in r.sessions && g2 !in r.sessions && g1 != g2
    ensures var e1 := EnterRoom(r, h, None, g1);
            var e2 := EnterRoom(e1.room, e1.habbo, None, g2);
            var u := Update(e2.room, diff, step);
            && e1.admitted && e2.admitted
            && !Disciplined(e1.room, Enter(e1.habbo, None, g2))
            && u.sessions.Keys == r.sessions.Keys + {g2} && g1 !in u.sessions
            && u.sessions[g2] == step(NewSession(e2.habbo), diff)
            && u.visitorsNow == |u.sessions| + 1
  {
    var e1 := EnterRoom(r, h, None, g1);
    AdmitTwo(r, h, e1.habbo, g1, g2);
    var e2 := EnterRoom(e1.room, e1.habbo, None, g2);
    assert Join(h.id) in e1.room.pending;
    UpdateTwoJoins(e2.room, h.id, h.id, diff, step);
    var u := Update(e2.room, diff, step);
    assert u.sessions.Keys == r.sessions.Keys + {g2};
    assert |u.sessions| == |u.sessions.Keys| == |r.sessions.Keys| + 1;
  }
}

=== FILE: text.dfy ===
/** String helpers shared by the grid loader and the registration validators. */
module Text {

  /** The `std::isdigit` test in the "C" locale. */
  predicate IsDigit(c: char) {
    '0' <= c <= '9'
  }

  /** The character `std::string` keeps after the last one. */
  const Nul: char := 0 as char

  /** `std::string::operator[]`: the character at `i`, and the terminating NUL
      at `i == |s|`; reading further is undefined, so it is not allowed here. */
  function CharAt(s: string, i: nat): (c: char)
    requires i <= |s|
    ensures i < |s| ==> c == s[i]
    ensures i == |s| ==> c == Nul && !IsDigit(c)
  {
    if i < |s| then s[i] else Nul
  }

  /** `needle` occurs in `hay` starting at index `i`. */
  predicate OccursAt(needle: string, hay: string, i: int) {
    0 <= i && i + |needle| <= |hay| && hay[i..i + |needle|] == needle
  }

  /** `hay.find(needle) != npos`, and equally `strstr(hay, needle) != NULL`. */
  predicate IsSubstring(needle: string, hay: string) {
    exists i :: 0 <= i <= |hay| && OccursAt(needle, hay, i)
  }

  /** Rejoins pieces with a separator: the inverse of `Split`. */
  function Join(pieces: seq<string>, sep: char): string
    requires |pieces| >= 1
  {
    if |pieces| == 1 then pieces[0] else pieces[0] + [sep] + Join(pieces[1..], sep)
  }

  /** `boost::split(out, s, boost::is_any_of(sep))` with token compression off:
      every separator ends a piece, so adjacent separators give empty pieces and
      the empty string gives one empty piece. */
  function Split(s: string, sep: char): (pieces: seq<string>)
    ensures |pieces| >= 1
    ensures forall i :: 0 <= i < |pieces| ==> sep !in pieces[i]
    ensures Join(pieces, sep) == s
  {
    if |s| == 0 then [""]
    else
      var rest := Split(s[1..], sep);
      if s[0] == sep then
        assert Join([""] + rest, sep) == [sep] + Join(rest, sep) by {
          assert ([""] + rest)[1..] == rest;
        }
        assert s == [s[0]] + s[1..];
        [""] + rest
      else
        var pieces := [[s[0]] + rest[0]] + rest[1..];
        assert pieces[1..] == rest[1..];
        assert s == [s[0]] + s[1..];
        if |rest| == 1 then pieces
        else
          assert Join(rest, sep) == rest[0] + [sep] + Join(rest[1..], sep);
          pieces
  }

  /** Splitting the joined pieces gives back the pieces, provided no piece holds
      the separator: `Split` and `Join` are mutually inverse. */
  lemma {:induction false} SplitJoin(pieces: seq<string>, sep: char)
    requires |pieces| >= 1
    requires forall i :: 0 <= i < |pieces| ==> sep !in pieces[i]
    ensures Split(Join(pieces, sep), sep) == pieces
    decreases |pieces|, |pieces[0]|
  {
    if |pieces| == 1 {
      SplitNoSep(pieces[0], sep);
    } else if |pieces[0]| == 0 {
      var s := Join(pieces, sep);
      assert s == [sep] + Join(pieces[1..], sep);
      assert s[1..] == Join(pieces[1..], sep);
      SplitJoin(pieces[1..], sep);
      assert pieces == [""] + pieces[1..];
    } else {
      var s := Join(pieces, sep);
      var c := pieces[0][0];
      assert c != sep by { assert c in pieces[0]; }
      var shorter := [pieces[0][1..]] + pieces[1..];
      assert shorter[1..] == pieces[1..];
      assert sep !in pieces[0][1..] by {
        forall k | 0 <= k < |pieces[0][1..]| ensures pieces[0][1..][k] != sep {
          assert pieces[0][1..][k] == pieces[0][k + 1];
        }
      }
      assert s[1..] == Join(shorter, sep);
      SplitJoin(shorter, sep);
      assert pieces[0] == [c] + pieces[0][1..];
      assert pieces == [[c] + shorter[0]] + shorter[1..];
    }
  }

  /** A string without the separator splits into itself. */
  lemma {:induction false} SplitNoSep(s: string, sep: char)
    requires sep !in s
    ensures Split(s, sep) == [s]
  {
    if |s| > 0 {
      assert sep !in s[1..] by {
        forall k | 0 <= k < |s[1..]| ensures s[1..][k] != sep {
          assert s[1..][k] == s[k + 1];
        }
      }
      SplitNoSep(s[1..], sep);
      assert s == [s[0]] + s[1..];
    }
  }
}

=== FILE: tile_grid.dfy ===
/** The room's tile grid, built once from the room model's height map. */
module TileGrid {
  import opened Wrappers
  import opened Text

  /** The line break that separates height-map rows. */
  const RowBreak: char := '\r'

  datatype Pos = Pos(x: int, y: int)

  /** Door position, height and orientation of a room model. */
  datatype Door = Door(x: int, y: int, z: int, orientation: int)

  /** A static public-room item as the item catalogue describes it. */
  datatype Item = Item(id: nat, sprite: string, x: int, y: int, z: int, rotation: int,
                       behaviour: string, triggers: seq<string>)

  /** A walkway: entering through it places the avatar at its destination. */
  datatype WalkWay = WalkWay(toX: int, toY: int, toZ: int, toRotation: int)

  datatype TileState = Open | Closed

  /** One cell. Triggers are referenced by their registry name. */
  datatype Tile = Tile(pos: Pos, state: TileState, height: int, item: Option<Item>,
                       triggers: seq<string>, walkway: Option<WalkWay>, occupied: bool)

  datatype Grid = Grid(sizeX: nat, sizeY: nat, tiles: map<Pos, Tile>)

  predicate InBounds(p: Pos, sizeX: int, sizeY: int) {
    0 <= p.x < sizeX && 0 <= p.y < sizeY
  }

  /** `GetTileInstance`: a bounds-checked lookup, none outside the grid. */
  function GetTile(g: Grid, x: int, y: int): (t: Option<Tile>)
    ensures t.Some? <==> Pos(x, y) in g.tiles
    ensures t.Some? ==> t.value == g.tiles[Pos(x, y)]
  {
    if Pos(x, y) in g.tiles then Some(g.tiles[Pos(x, y)]) else None
  }

  /** Every row reaches the width taken from the first row, or falls one short
      of it: then the loader reads the row's terminating NUL for the last cell.
      A row shorter still would be read past its end. */
  predicate RowsReachWidth(rows: seq<string>) {
    |rows| >= 1 && forall j :: 0 <= j < |rows| ==> |rows[0]| <= |rows[j]| + 1
  }

  /** The tile the loader builds at `p` from the height-map character `c`:
      digit or not, then the door override, then the public-room extras. */
  function CellTile(c: char, p: Pos, door: Door, isPublic: bool,
                    items: Pos -> Option<Item>, walkways: Pos -> Option<WalkWay>): (t: Tile)
    ensures t.pos == p && !t.occupied
    ensures p != Pos(door.x, door.y) && IsDigit(c) ==>
              t.state == Open && t.height == c as int - '0' as int
    ensures p != Pos(door.x, door.y) && !IsDigit(c) ==> t.state == Closed && t.height == 0
    ensures p == Pos(door.x, door.y) ==> t.state == Open && t.height == door.z
    ensures isPublic ==> t.item == items(p) && t.walkway == walkways(p)
    ensures isPublic && items(p).Some? ==> t.triggers == items(p).value.triggers
    ensures isPublic && items(p).None? ==> t.triggers == ["default"]
    ensures !isPublic ==> t.item.None? && t.triggers == [] && t.walkway.None?
  {
    var state := if IsDigit(c) then Open else Closed;
    var height := if IsDigit(c) then c as int - '0' as int else 0;
    var (state, height) := if door.x == p.x && door.y == p.y then (Open, door.z) else (state, height);
    var base := Tile(p, state, height, None, [], None, false);
    if !isPublic then base
    else
      var item := items(p);
      var triggers := if item.Some? then item.value.triggers else ["default"];
      base.(item := item, triggers := triggers, walkway := walkways(p))
  }

  /** What `LoadGridData` builds from the height map: the row count as the Y
      size, the first row's length as the X size, and one tile per cell, each
      the cell tile of the character read there. */
  ghost predicate LoadedFrom(g: Grid, heightMap: string, door: Door, isPublic: bool,
                       items: Pos -> Option<Item>, walkways: Pos -> Option<WalkWay>)
    requires RowsReachWidth(Split(heightMap, RowBreak))
  {
    var rows := Split(heightMap, RowBreak);
    && g.sizeY == |rows|
    && g.sizeX == |rows[0]|
    && (forall p :: p in g.tiles <==> InBounds(p, g.sizeX, g.sizeY))
    && (forall p :: p in g.tiles ==>
          g.tiles[p] == CellTile(CharAt(rows[p.y], p.x), p, door, isPublic, items, walkways))
  }

  /** `LoadGridData`: split the height map on line breaks, take the row count as
      the Y size and the first row's length as the X size, and build one tile per
      cell, row by row, as the source's nested loops do. */
  method LoadGridData(heightMap: string, door: Door, isPublic: bool,
                      items: Pos -> Option<Item>, walkways: Pos -> Option<WalkWay>)
    returns (g: Grid)
    requires RowsReachWidth(Split(heightMap, RowBreak))
    ensures LoadedFrom(g, heightMap, door, isPublic, items, walkways)
  {
    var rows := Split(heightMap, RowBreak);
    var sizeY := |rows|;
    var sizeX := |rows[0]|;
    var tiles: map<Pos, Tile> := map[];
    var y := 0;
    while y < sizeY
      invariant 0 <= y <= sizeY
      invariant forall p :: p in tiles <==> InBounds(p, sizeX, y)
      invariant forall p :: p in tiles ==>
                  tiles[p] == CellTile(CharAt(rows[p.y], p.x), p, door, isPublic, items, walkways)
    {
      var line := rows[y];
      var x := 0;
      while x < sizeX
        invariant 0 <= x <= sizeX
        invariant forall p :: p in tiles <==> InBounds(p, sizeX, y) || (p.y == y && 0 <= p.x < x)
        invariant forall p :: p in tiles ==>
                    tiles[p] == CellTile(CharAt(rows[p.y], p.x), p, door, isPublic, items, walkways)
      {
        tiles := tiles[Pos(x, y) := CellTile(CharAt(line, x), Pos(x, y), door, isPublic, items, walkways)];
        x := x + 1;
      }
      y := y + 1;
    }
    g := Grid(sizeX, sizeY, tiles);
  }

  /** On a loaded grid the lookup finds a tile exactly inside the bounds, and
      it is the tile of the character read there. */
  lemma GetTileOnLoadedGrid(g: Grid, heightMap: string, door: Door, isPublic: bool,
                            items: Pos -> Option<Item>, walkways: Pos -> Option<WalkWay>, x: int, y: int)
    requires RowsReachWidth(Split(heightMap, RowBreak))
    requires LoadedFrom(g, heightMap, door, isPublic, items, walkways)
    ensures GetTile(g, x, y).Some? <==> 0 <= x < g.sizeX && 0 <= y < g.sizeY
    ensures GetTile(g, x, y).Some? ==>
              var rows := Split(heightMap, RowBreak);
              GetTile(g, x, y).value == CellTile(CharAt(rows[y], x), Pos(x, y), door, isPublic, items, walkways)
  {
    assert Pos(x, y) in g.tiles <==> InBounds(Pos(x, y), g.sizeX, g.sizeY);
  }

  /** The tile at `(x, y)` with its occupancy flag set as given; nothing
      happens outside the grid. */
  function SetTileOccupied(g: Grid, x: int, y: int, occupied: bool): (g': Grid)
    ensures g'.sizeX == g.sizeX && g'.sizeY == g.sizeY
    ensures g'.tiles.Keys == g.tiles.Keys
    ensures forall p :: p in g.tiles && p != Pos(x, y) ==> g'.tiles[p] == g.tiles[p]
    ensures Pos(x, y) in g.tiles ==> g'.tiles[Pos(x, y)] == g.tiles[Pos(x, y)].(occupied := occupied)
  {
    if Pos(x, y) in g.tiles then
      g.(tiles := g.tiles[Pos(x, y) := g.tiles[Pos(x, y)].(occupied := occupied)])
    else g
  }

  /** A map of two rows without row breaks splits back into those rows. */
  lemma TwoRows(top: string, bottom: string)
    requires RowBreak !in top && RowBreak !in bottom
    ensures Split(top + [RowBreak] + bottom, RowBreak) == [top, bottom]
  {
    SplitJoin([top, bottom], RowBreak);
    assert Join([top, bottom], RowBreak) == top + [RowBreak] + bottom;
  }

  /** The two-row map "11\r22" with the door at (0, 0) and height 5 loads as a
      two-by-two grid: the door cell is open at height 5, the other cells are
      open at their digit's height, and nothing lies outside. */
  method HeightMapExample() returns (g: Grid)
    ensures g.sizeX == 2 && g.sizeY == 2
    ensures GetTile(g, 0, 0).Some? && GetTile(g, 0, 0).value.state == Open && GetTile(g, 0, 0).value.height == 5
    ensures GetTile(g, 1, 0).Some? && GetTile(g, 1, 0).value.state == Open && GetTile(g, 1, 0).value.height == 1
    ensures GetTile(g, 1, 1).Some? && GetTile(g, 1, 1).value.state == Open && GetTile(g, 1, 1).value.height == 2
    ensures GetTile(g, 2, 0).None? && GetTile(g, 0, 2).None?
  {
    TwoRows("11", "22");
    assert "11\r22" == "11" + [RowBreak] + "22";
    var door: Door, noItem: Pos -> Option<Item>, noWay: Pos -> Option<WalkWay> := Door(0, 0, 5, 2), _ => None, _ => None;
    g := LoadGridData("11\r22", door, false, noItem, noWay);
    GetTileOnLoadedGrid(g, "11\r22", door, false, noItem, noWay, 0, 0);
    GetTileOnLoadedGrid(g, "11\r22", door, false, noItem, noWay, 1, 0);
    GetTileOnLoadedGrid(g, "11\r22", door, false, noItem, noWay, 1, 1);
    GetTileOnLoadedGrid(g, "11\r22", door, false, noItem, noWay, 2, 0);
    GetTileOnLoadedGrid(g, "11\r22", door, false, noItem, noWay, 0, 2);
  }

  /** The map "1x\r2": a non-digit cell is closed at height 0, and so is the
      cell read past the end of the short second row. */
  method ShortRowExample() returns (g: Grid)
    ensures g.sizeX == 2 && g.sizeY == 2
    ensures GetTile(g, 0, 1).Some? && GetTile(g, 0, 1).value.state == Open && GetTile(g, 0, 1).value.height == 2
    ensures GetTile(g, 1, 0).Some? && GetTile(g, 1, 0).value.state == Closed && GetTile(g, 1, 0).value.height == 0
    ensures GetTile(g, 1, 1).Some? && GetTile(g, 1, 1).value.state == Closed && GetTile(g, 1, 1).value.height == 0
  {
    TwoRows("1x", "2");
    assert "1x\r2" == "1x" + [RowBreak] + "2";
    var door: Door, noItem: Pos -> Option<Item>, noWay: Pos -> Option<WalkWay> := Door(5, 5, 0, 0), _ => None, _ => None;
    g := LoadGridData("1x\r2", door, false, noItem, noWay);
    GetTileOnLoadedGrid(g, "1x\r2", door, false, noItem, noWay, 0, 1);
    GetTileOnLoadedGrid(g, "1x\r2", door, false, noItem, noWay, 1, 0);
    GetTileOnLoadedGrid(g, "1x\r2", door, false, noItem, noWay, 1, 1);
  }
}

=== FILE: world_timer.dfy ===
/** The drift compensation of the server's main loop: each pass updates the
    world with the measured tick, then sleeps for what is left of the update
    period plus the previous sleep, or not at all when the tick overran. */
module WorldTimer {

  const Uint32Modulus: int := 0x1_0000_0000

  type Uint32 = x: int | 0 <= x < 0x1_0000_0000

  /** `uint32` addition, wrapping around. */
  function Add32(a: Uint32, b: Uint32): (s: Uint32)
    ensures a + b < Uint32Modulus ==> s == a + b
    ensures a + b >= Uint32Modulus ==> s == a + b - Uint32Modulus
  {
    (a + b) % Uint32Modulus
  }

  /** The next sleep, from the update period `timer`, the tick `diff` and the
      previous sleep. The subtraction happens only when it cannot underflow, so
      the result is a valid `uint32` no larger than the (wrapped) budget. */
  function NextSleep(timer: Uint32, diff: Uint32, prevSleep: Uint32): (next: Uint32)
    ensures next <= Add32(timer, prevSleep)
    ensures diff <= Add32(timer, prevSleep) ==> next + diff == Add32(timer, prevSleep)
    ensures diff > Add32(timer, prevSleep) ==> next == 0
  {
    var budget := Add32(timer, prevSleep);
    if diff <= budget then budget - diff else 0
  }

  /** The sleeps of successive passes, starting from a previous sleep. */
  function Sleeps(timer: Uint32, diffs: seq<Uint32>, prevSleep: Uint32): (sleeps: seq<Uint32>)
    ensures |sleeps| == |diffs|
    decreases |diffs|
  {
    if |diffs| == 0 then []
    else
      var next := NextSleep(timer, diffs[0], prevSleep);
      [next] + Sleeps(timer, diffs[1..], next)
  }

  /** Each sleep is worked out from the tick of its pass and the sleep before
      it, the first from the starting sleep. */
  lemma {:induction false} SleepsChain(timer: Uint32, diffs: seq<Uint32>, prevSleep: Uint32)
    ensures var sleeps := Sleeps(timer, diffs, prevSleep);
            && (|diffs| > 0 ==> sleeps[0] == NextSleep(timer, diffs[0], prevSleep))
            && forall i :: 0 < i < |diffs| ==> sleeps[i] == NextSleep(timer, diffs[i], sleeps[i - 1])
    decreases |diffs|
  {
    if |diffs| > 0 {
      var next := NextSleep(timer, diffs[0], prevSleep);
      var rest := Sleeps(timer, diffs[1..], next);
      SleepsChain(timer, diffs[1..], next);
      var sleeps := Sleeps(timer, diffs, prevSleep);
      assert sleeps == [next] + rest;
      forall i | 0 < i < |diffs| ensures sleeps[i] == NextSleep(timer, diffs[i], sleeps[i - 1]) {
        assert sleeps[i] == rest[i - 1] && diffs[i] == diffs[1..][i - 1];
        if i > 1 { assert sleeps[i - 1] == rest[i - 2]; }
      }
    }
  }

  /** The main loop over a finite run of ticks: `UpdateWorld` is called once
      per pass with that pass's tick, before the pass's sleep is worked out
      from the previous one. */
  method MainLoop(timer: Uint32, diffs: seq<Uint32>) returns (updates: seq<Uint32>, sleeps: seq<Uint32>)
    ensures updates == diffs
    ensures |sleeps| == |diffs|
    ensures forall i :: 0 < i < |diffs| ==> sleeps[i] == NextSleep(timer, diffs[i], sleeps[i - 1])
    ensures |diffs| > 0 ==> sleeps[0] == NextSleep(timer, diffs[0], 0)
    ensures sleeps == Sleeps(timer, diffs, 0)
  {
    updates, sleeps := [], [];
    var prevSleep: Uint32 := 0;
    var i := 0;
    while i < |diffs|
      invariant 0 <= i <= |diffs|
      invariant updates == diffs[..i] && |sleeps| == i
      invariant i == 0 ==> prevSleep == 0
      invariant i > 0 ==> prevSleep == sleeps[i - 1]
      invariant sleeps + Sleeps(timer, diffs[i..], prevSleep) == Sleeps(timer, diffs, 0)
    {
      var diff := diffs[i];
      updates := updates + [diff];
      assert diffs[i..][1..] == diffs[i + 1..];
      var next := NextSleep(timer, diff, prevSleep);
      assert Sleeps(timer, diffs[i..], prevSleep) == [next] + Sleeps(timer, diffs[i + 1..], next);
      assert sleeps + Sleeps(timer, diffs[i..], prevSleep) == (sleeps + [next]) + Sleeps(timer, diffs[i + 1..], next);
      prevSleep := next;
      sleeps := sleeps + [next];
      i := i + 1;
    }
    assert diffs[..i] == diffs;
    assert sleeps == Sleeps(timer, diffs, 0);
    SleepsChain(timer, diffs, 0);
  }

  /** Each tick covers the sleep before it: the measured time includes the
      time slept. */
  predicate TicksCoverSleeps(timer: Uint32, diffs: seq<Uint32>, prevSleep: Uint32)
    decreases |diffs|
  {
    |diffs| == 0 ||
    (diffs[0] >= prevSleep && TicksCoverSleeps(timer, diffs[1..], NextSleep(timer, diffs[0], prevSleep)))
  }

  /** When every tick covers the previous sleep and twice the period fits in 32
      bits, no sleep ever exceeds the update period, so the budget never wraps. */
  lemma {:induction false} SleepsStayWithinPeriod(timer: Uint32, diffs: seq<Uint32>, prevSleep: Uint32)
    requires 2 * timer < Uint32Modulus && prevSleep <= timer
    requires TicksCoverSleeps(timer, diffs, prevSleep)
    ensures forall i :: 0 <= i < |diffs| ==> Sleeps(timer, diffs, prevSleep)[i] <= timer
    decreases |diffs|
  {
    if |diffs| > 0 {
      var next := NextSleep(timer, diffs[0], prevSleep);
      assert next <= timer;
      SleepsStayWithinPeriod(timer, diffs[1..], next);
      var rest := Sleeps(timer, diffs[1..], next);
      assert Sleeps(timer, diffs, prevSleep) == [next] + rest;
    }
  }

  /** Ticks shorter than the previous sleep let the sleep grow past the period:
      three zero-length ticks with a 500 ms period sleep 500, 1000, 1500 ms. */
  lemma ShortTicksAccumulate()
    ensures Sleeps(500, [0, 0, 0], 0) == [500, 1000, 1500]
  {
    var d: seq<Uint32> := [0, 0, 0];
    assert d[1..] == [0, 0] && d[1..][1..] == [0] && d[1..][1..][1..] == [];
  }
}

=== FILE: wrappers.dfy ===
/** Optional values, standing in for the nullable pointers of the server. */
module Wrappers {

  datatype Option<+T> = None | Some(value: T) {

    /** Returns the value in Some, or the given default for None. */
    function GetOr(default: T): T {
      match this
      case Some(v) => v
      case None => default
    }
  }
}
